=== FILE: README.md ===
# Partner-block maintenance scripts, modelled in Dafny

The repository keeps a "partners" block on the pages of a set of sites. Six
scripts do the work that matters here:

- `content-generation/generate.py` pulls the linked domain out of a seed text
  (`extract_domain`).
- `scripts/generate_partners.py` fills the partner-block template once per
  (domain, content) pair.
- `scripts/inject_to_html.py` inserts each generated block into the
  domain's local `partners/index.html` in front of every
  `</div></div></section>` closing sequence.
- `scripts/sftp_modify_inject.py` moves the live `index.html` aside to a
  timestamped backup, picks a base page (the backup, else the live page, else
  a scaffold), appends the filled snippet to the partner row (else to
  `<body>`, else to the document) and uploads the result.
- `duplication/cleanup_duplicates.py` renames `index.html` to
  `rollback.html`, keeps only the last partner wrapper for each domain key
  and uploads the cleaned page.
- `duplication/remove_duplicate_block.py` stores a timestamped copy of
  `index.html`, keeps only the first wrapper for each exact href and uploads
  the result.

The model has these parts:

- **`PyStr`** models the Python string operations the scripts rely on:
  `find`, clamped slicing, `replace`, `split`, `join`, `strip` and `lower`.
  Each is stated with the meaning Python gives it, including `find`'s `-1`
  and the left-to-right, non-overlapping scan of `replace` and `split`.
- **`Url`** models the `netloc` of `urllib.parse.urlparse` over the generic
  syntax of RFC 3986 (section 3.1 scheme, section 3.2 authority).
- **`Dedup`** gives two generic selections, "last occurrence wins" and
  "first occurrence wins" over a key function. Each has an independent
  mask-based reference definition and the lemmas tying the two together.
- **`Partners`** models a page as its partner wrappers (`div.client-wrapper`)
  in document order.
- **`Tree`** models a parsed page as an element tree with `find` (first
  match in document order) and `append`.
- **`Remote`** models the remote directory as a map from file names to
  content. Failures of the transfer are passed in as a `Faults` value, so
  that every combination of failures can be stated about.
- **`Timestamp`** models `%Y%m%d%H%M%S`.
- **One module per script.** `CleanupDuplicates` sees a page as its
  wrappers plus the markup around them (`Html`), so that the fallback page it
  uploads is told apart from a live page with no partner entries.

## Model

| member | source | states |
|---|---|---|
| PyStr.LStrip | duplication/cleanup_duplicates.py:50 | the result is a suffix of the input that does not start with whitespace, and what was dropped is all whitespace |
| PyStr.RStrip | duplication/cleanup_duplicates.py:50 | the result is a prefix of the input that does not end with whitespace, and what was dropped is all whitespace |
| PyStr.Strip | duplication/cleanup_duplicates.py:50 | a stripped href neither starts nor ends with whitespace |
| PyStr.StripExact | duplication/cleanup_duplicates.py:50 | stripping whitespace-only padding around an already trimmed text gives exactly that text back |
| PyStr.StripIdempotent | duplication/cleanup_duplicates.py:50 | stripping twice is stripping once |
| PyStr.Find | content-generation/generate.py:23-24 | `find` returns the first occurrence at or after the start, and -1 exactly when there is none |
| PyStr.SliceBound | content-generation/generate.py:25 | a slice bound in range is kept, a negative one counts from the end, and every bound is clamped to the length |
| PyStr.Slice | content-generation/generate.py:25 | `s[lo:hi]` with both bounds normalised as `PyStr.SliceBound` states; `Generate.LinkOfQuotedHref`, `LinkWithoutMarker` and `LinkWithoutClosingQuote` give the slices the script takes |
| PyStr.Lower | duplication/cleanup_duplicates.py:52 | keeps the length and lower-cases the ASCII letters; `CleanupDuplicates.KeyOfWwwUrl` shows it folding "Example" to "example" |
| PyStr.Replace | scripts/generate_partners.py:19 | left-to-right, non-overlapping replacement: it equals splitting at the pattern and joining with the replacement (`PyStr.ReplaceIsJoinOfSplit`), leaves a text without the pattern unchanged (`PyStr.AbsentPattern`), and changes the length per occurrence (`PyStr.ReplaceLength`) |
| PyStr.Split | duplication/cleanup_duplicates.py:57-59 | at least one piece; the pieces rejoin to the text (`PyStr.JoinSplit`), hold no separator (`PyStr.SplitPiecesFree`), and the first ends at the leftmost occurrence (`PyStr.SplitHeadAt`) |
| PyStr.Join | scripts/generate_partners.py:19 | the inverse of `Split` (`PyStr.JoinSplit`), and with the replacement it gives `Replace` (`PyStr.ReplaceIsJoinOfSplit`) |
| PyStr.JoinSplit | duplication/cleanup_duplicates.py:57 | joining the pieces of a split with the separator rebuilds the text |
| PyStr.ReplaceIsJoinOfSplit | scripts/generate_partners.py:19 | `replace` is splitting at the pattern and joining with the replacement |
| PyStr.SplitPiecesFree | duplication/cleanup_duplicates.py:57 | no piece of a split contains the separator |
| PyStr.SplitHeadAt | duplication/cleanup_duplicates.py:57-59 | the first piece of a split is the text before the leftmost occurrence of the separator, even for a separator that overlaps itself ("a///b" split at "//" starts with "a") |
| PyStr.SplitHeadIsFind | duplication/cleanup_duplicates.py:57-59 | when the separator occurs, `s.split(sep)[0]` is `s[:s.find(sep)]` |
| PyStr.AbsentPattern | content-generation/generate.py:28 | a text without the pattern splits into itself alone and is left unchanged by `replace` |
| PyStr.ReplaceLength | scripts/generate_partners.py:19 | each replaced occurrence changes the length by the length difference of replacement and pattern |
| PyStr.ReplaceConcat | content-generation/generate.py:28 | when no occurrence straddles the boundary, `replace` on a concatenation is `replace` on each part |
| PyStr.SplitAfterFirst | duplication/cleanup_duplicates.py:57 | a text with the separator after a separator-free head splits into that head followed by the split of the rest |
| PyStr.SplitHeadBefore | duplication/cleanup_duplicates.py:59 | the first piece of a split at '/' is the text before the first '/' |
| Url.Netloc | duplication/cleanup_duplicates.py:51 | the authority never holds '/', '?' or '#' |
| Url.NetlocOfAbsolute | duplication/cleanup_duplicates.py:51 | for "scheme://auth" followed by a path, query, fragment or nothing, the netloc is exactly auth |
| Url.NetlocOfProtocolRelative | duplication/cleanup_duplicates.py:51 | for "//auth" followed by a path, query, fragment or nothing, the netloc is exactly auth |
| Url.NetlocNeedsDoubleSlash | duplication/cleanup_duplicates.py:51 | an href without "//" has an empty netloc |
| Dedup.LastWins | duplication/cleanup_duplicates.py:46-69 | the last-wins policy: `Dedup.LastWinsKeepsExactly` states which entries survive, and `LastWinsDistinct`, `LastWinsKeys`, `LastWinsFixpoint`, `LastWinsConcat` and `LastWinsKeyless` state what the survivors are |
| Dedup.FirstWins | duplication/remove_duplicate_block.py:34-44 | the first-wins policy: `Dedup.FirstWinsKeepsExactly` states which entries survive, and `FirstWinsDistinct`, `FirstWinsKeys`, `FirstWinsFixpoint`, `FirstWinsConcat` and `FirstWinsKeyless` state what the survivors are |
| Dedup.LastWinsKeepsExactly | duplication/cleanup_duplicates.py:46-69 | the reverse scan keeps exactly the entries that are keyless or whose key does not occur later, in order |
| Dedup.LastWinsKeys | duplication/cleanup_duplicates.py:64-69 | every key of the page survives the cleanup |
| Dedup.LastWinsDistinct | duplication/cleanup_duplicates.py:64-69 | after the cleanup no two entries share a key |
| Dedup.LastWinsFixpoint | duplication/cleanup_duplicates.py:64-69 | the cleanup changes nothing exactly when the page has no duplicate keys |
| Dedup.LastWinsIdempotent | duplication/cleanup_duplicates.py:46-69 | cleaning a cleaned page changes nothing |
| Dedup.LastWinsKeylessLast | duplication/cleanup_duplicates.py:61-62 | a keyless entry at the end of the page, the first one the reverse scan visits, is kept, and the rest of the outcome is as if it were absent |
| Dedup.LastWinsConcat | duplication/cleanup_duplicates.py:47-69 | on a page cut in two, the back part keeps its own last-wins survivors, and which entries of the front part survive depends on the back part only through the keys it carries |
| Dedup.LastWinsKeyless | duplication/cleanup_duplicates.py:61-62 | a keyless entry anywhere in the page is kept in its place, and the entries around it are exactly those that survive on the page without it |
| Dedup.LastWinsShrinks | duplication/cleanup_duplicates.py:64-67 | the cleanup never adds entries, and it keeps the page unchanged when it removes none |
| Dedup.FirstWinsKeepsExactly | duplication/remove_duplicate_block.py:34-44 | the forward scan keeps exactly the entries that are keyless or whose key does not occur earlier, in order |
| Dedup.FirstWinsKeys | duplication/remove_duplicate_block.py:39-44 | every href of the page survives the cleanup |
| Dedup.FirstWinsDistinct | duplication/remove_duplicate_block.py:39-44 | after the cleanup no two entries share an href |
| Dedup.FirstWinsFixpoint | duplication/remove_duplicate_block.py:39-44 | the cleanup changes nothing exactly when no href repeats |
| Dedup.FirstWinsIdempotent | duplication/remove_duplicate_block.py:34-44 | cleaning a cleaned page changes nothing |
| Dedup.FirstWinsKeylessFirst | duplication/remove_duplicate_block.py:39 | a wrapper without an href at the start of the page is kept, and the rest of the outcome is as if it were absent |
| Dedup.FirstWinsConcat | duplication/remove_duplicate_block.py:36-44 | on a page cut in two, the front part keeps its own first-wins survivors, and which entries of the back part survive depends on the front part only through the keys it carries |
| Dedup.FirstWinsKeyless | duplication/remove_duplicate_block.py:38-39 | a wrapper without an href anywhere in the page is kept in its place, and the wrappers around it are exactly those that survive on the page without it |
| Dedup.FirstWinsShrinks | duplication/remove_duplicate_block.py:40-42 | the cleanup never adds entries, and it keeps the page unchanged when it removes none |
| Partners.FirstLinkWithHref | duplication/cleanup_duplicates.py:48-49 | the anchor found has an href, and none is found exactly when no anchor has one |
| Partners.FirstLink | duplication/remove_duplicate_block.py:37 | the first anchor, with or without an href; `RemoveDuplicateBlock.RawKey` reads the key from it |
| CleanupDuplicates.HostKey | duplication/cleanup_duplicates.py:51-52 | the href's authority, lower-cased, with every "www." removed: `CleanupDuplicates.KeyOfAbsoluteUrl` and `KeyOfProtocolRelative` give it for hrefs with an authority, and `NoAuthorityNoHostKey` makes it empty without one |
| CleanupDuplicates.NoAuthorityNoHostKey | duplication/cleanup_duplicates.py:51-55 | an href without an authority has an empty host key, so the fallback branch is taken |
| CleanupDuplicates.FallbackKey | duplication/cleanup_duplicates.py:56-59 | the text after the last "//" (or from the start without one) up to the first '/', "www." removed and case kept: `CleanupDuplicates.KeyAfterDoubleSlash`, `LastPieceAfter` and `KeyOfBareHost` |
| CleanupDuplicates.StrippedKey | duplication/cleanup_duplicates.py:51-59 | the host key, unless it is empty and the href is not, when the fallback key is used |
| CleanupDuplicates.DomainKey | duplication/cleanup_duplicates.py:50-59 | the key of the stripped href: it never holds '/' (`CleanupDuplicates.DomainKeyHasNoSlash`), ignores surrounding whitespace (`DomainKeyIgnoresSpace`), is empty for a blank href (`BlankHrefHasNoKey`), and `KeyOfAbsoluteUrl`, `KeyOfProtocolRelative`, `KeyOfBareHost`, `KeyAfterDoubleSlash` and `KeyOfWwwUrl` give its value per href shape |
| CleanupDuplicates.CleanupKey | duplication/cleanup_duplicates.py:48-62 | the domain key of the first anchor with an href (`Partners.FirstLinkWithHref`), empty when there is none, so such a wrapper is skipped |
| CleanupDuplicates.DomainKeyHasNoSlash | duplication/cleanup_duplicates.py:50-59 | a domain key never contains '/', whichever branch produced it |
| CleanupDuplicates.DomainKeyIgnoresSpace | duplication/cleanup_duplicates.py:50 | whitespace around an href never changes its key |
| CleanupDuplicates.BlankHrefHasNoKey | duplication/cleanup_duplicates.py:50-62 | an empty or blank href has no key, so its wrapper is skipped |
| CleanupDuplicates.KeyOfAbsoluteUrl | duplication/cleanup_duplicates.py:50-52 | an absolute URL is keyed by its authority, lower-cased, with "www." removed |
| CleanupDuplicates.KeyOfProtocolRelative | duplication/cleanup_duplicates.py:50-52 | a "//host/..." href is keyed like an absolute URL |
| CleanupDuplicates.KeyOfBareHost | duplication/cleanup_duplicates.py:55-59 | an href without "//" is keyed by the text before its first '/', with "www." removed and the case kept |
| CleanupDuplicates.KeyAfterDoubleSlash | duplication/cleanup_duplicates.py:55-57 | an href "x//host/..." with no authority (x has no ':' and neither starts nor ends with '/', and may itself hold "//") is keyed by the host after the LAST "//", with "www." removed and the case kept |
| CleanupDuplicates.LastPieceAfter | duplication/cleanup_duplicates.py:57 | `split("//")[-1]` is the text after the last "//", whatever "//" the text before it holds, and there are at least two pieces |
| CleanupDuplicates.KeyOfWwwUrl | duplication/cleanup_duplicates.py:51-52 | "https://www.Example.com/x" is keyed "example.com" |
| CleanupDuplicates.DetectAndRemoveDuplicates | duplication/cleanup_duplicates.py:37-72 | the loop computes the last-wins selection; the result has distinct keys; the count is the number of wrappers dropped; it is zero exactly when there were no duplicates |
| CleanupDuplicates.BackupFile | duplication/cleanup_duplicates.py:12-18 | a successful rename moves the page to rollback.html; any failure, including a missing page, leaves the directory as it was; no other file changes |
| CleanupDuplicates.FetchHtml | duplication/cleanup_duplicates.py:20-35 | the base page is rollback.html if it can be retrieved, else index.html, else the fallback page (the fixed fallback markup with no partner entries) |
| CleanupDuplicates.Cleanup | duplication/cleanup_duplicates.py:37-72 | the markup around the wrappers is kept; no key is lost, no two surviving wrappers share a key, and the page comes back unchanged exactly when it had no duplicate keys |
| CleanupDuplicates.ProcessDomain | duplication/cleanup_duplicates.py:74-100 | a failed connection changes nothing; only the two file names can change; after a successful backup the old page survives as rollback.html; a failed upload, taken as all or nothing, then leaves no index.html; a successful one publishes the cleanup of the fetched base page |
| CleanupDuplicates.ProcessDomainStaleRollback | duplication/cleanup_duplicates.py:12-35 | when the rename fails while an earlier run's rollback.html remains, the live page is replaced by the cleanup of that stale rollback, frame included |
| CleanupDuplicates.ProcessDomainRollbackUnreadable | duplication/cleanup_duplicates.py:12-35 | when the rename succeeds but rollback.html cannot be retrieved, the fallback page replaces the whole live page, its markup as well as its entries, and the old page survives only as rollback.html |
| CleanupDuplicates.ProcessDomainNoFaults | duplication/cleanup_duplicates.py:74-100 | without faults the live page becomes its cleanup and the original is kept as rollback.html |
| CleanupDuplicates.ProcessDomainNoIndex | duplication/cleanup_duplicates.py:83-95 | without index.html, a leftover rollback.html is cleaned and republished; with neither file the fallback page is |
| RemoveDuplicateBlock.RawKey | duplication/remove_duplicate_block.py:37-39 | the href of the first `<a>`, verbatim, empty when there is no `<a>`, it has no href, or the href is empty; `RemoveDuplicateBlock.RemoveDuplicates` applies first-wins with it |
| RemoveDuplicateBlock.RemoveDuplicates | duplication/remove_duplicate_block.py:34-44 | the loop computes the first-wins selection on exact hrefs; the result has distinct hrefs; the count is the number dropped; it is zero exactly when no href repeats |
| RemoveDuplicateBlock.CleanSiteAs | duplication/remove_duplicate_block.py:17-51 | the run completes exactly when no operation fails, and then the backup holds the fetched page and index.html its cleanup; only those two names change; index.html never appears or disappears, changes only once its backup exists, and is untouched by a run that stops early |
| SftpModifyInject.InjectionPoint | scripts/sftp_modify_inject.py:17-29 | the injection point is always an element of the page |
| SftpModifyInject.InjectionPointChoice | scripts/sftp_modify_inject.py:17-29 | the point is the first partner row in document order if there is one, else the first body, else the document itself |
| SftpModifyInject.InjectIntoHtml | scripts/sftp_modify_inject.py:13-31 | the snippet's nodes become the last children of the injection point; the point keeps its tag and class; removing them gives back the original page |
| SftpModifyInject.ScaffoldInjection | scripts/sftp_modify_inject.py:63-65 | injected into the scaffold, the snippet is exactly the content of its partner row |
| SftpModifyInject.SnippetText | scripts/sftp_modify_inject.py:75-88 | the first listed content for the domain when there is one, the default text in every other case |
| SftpModifyInject.Fragment | scripts/sftp_modify_inject.py:71-88 | no snippet exactly when the template or the contents file cannot be read; otherwise the template filled with the domain's first content, or with the default text when there is no contents file |
| SftpModifyInject.AfterRename | scripts/sftp_modify_inject.py:44-49 | a successful rename moves the live page to the backup name; a permanent error leaves the directory unchanged |
| SftpModifyInject.BasePage | scripts/sftp_modify_inject.py:51-69 | the base page is the backup if retrievable, else the live page if retrievable, else the scaffold |
| SftpModifyInject.HandleAs | scripts/sftp_modify_inject.py:34-96 | a failed connection or a non-permanent rename error raises with nothing changed; a failed template or contents read raises after the rename; the page is published exactly when the reads and the upload succeed; only index.html and the backup can change; a moved page is kept in the backup; a failed read, or a failed upload taken as all or nothing, after the move leaves no index.html; every published index.html is the base page, chosen backup, else live page, else scaffold as `BasePage` states, with the snippet injected; in particular, a published page built from a retrievable backup is the old page with the snippet injected, and on a site with neither file it is the scaffold with the snippet |
| SftpModifyInject.HandleBackupUnreadable | scripts/sftp_modify_inject.py:44-65 | when the page was moved but the backup cannot be retrieved, the scaffold with the snippet is published and the old page survives only as the backup |
| SftpModifyInject.HandlePermFault | scripts/sftp_modify_inject.py:44-69 | after a tolerated permanent rename error, with no file under the backup name, the published page is the live page with the snippet injected |
| SftpModifyInject.HandleOverwriteUnbacked | scripts/sftp_modify_inject.py:44-65 | after a tolerated permanent rename error on a site with a live page and no file under the backup name, when the live page cannot be retrieved, the scaffold with the snippet is published over the live page and no backup of it exists |
| SftpModifyInject.HandleReadFault | scripts/sftp_modify_inject.py:71-79 | a template or contents read that raises after the page was moved leaves the site without index.html, the old page kept as the backup |
| SftpModifyInject.HandleNoFaults | scripts/sftp_modify_inject.py:34-96 | without faults the old page moves to the backup and the new index.html is that page with the snippet injected, nothing else changing |
| SftpModifyInject.HandleEmptySite | scripts/sftp_modify_inject.py:52-93 | on an empty site the only file afterwards is index.html, whose partner row holds exactly the snippet |
| Timestamp.Format | duplication/remove_duplicate_block.py:26 | a timestamp is fourteen digits |
| Timestamp.ParseFormat | duplication/remove_duplicate_block.py:26 | the fourteen digits read back as the instant they were made from |
| Timestamp.FormatInjective | scripts/sftp_modify_inject.py:41 | different instants give different timestamps |
| Timestamp.Stamped | scripts/sftp_modify_inject.py:41-42 | a backup name is the prefix, fourteen digits and ".html"; the digits read back as the instant of the run, so runs at different instants back up to different files, and no backup name can be `index.html` |
| Template.Fill | scripts/generate_partners.py:19 | every placeholder replaced by the text: `Template.FillReplacesEvery`, `FillWithoutPlaceholder` and `FillLength` |
| Template.FillReplacesEvery | scripts/generate_partners.py:19 | filling cuts the template at every placeholder and puts the text in each gap; the pieces hold no placeholder and rejoin to the template |
| Template.FillWithoutPlaceholder | scripts/generate_partners.py:19 | a template without the placeholder is used as it is |
| Template.FillLength | scripts/sftp_modify_inject.py:83 | each placeholder trades its eleven characters for the text |
| GeneratePartners.OutputName | scripts/generate_partners.py:20 | the file name is the domain followed by "_partner.html" |
| GeneratePartners.Generate | scripts/generate_partners.py:18-21 | one block per pair, as many as the shorter list, the i-th named after the i-th domain and filled with the i-th content |
| InjectToHtml.MatchLen | scripts/inject_to_html.py:15 | the length of a match of `</div>\s*</div>\s*</section>` at the start of the text, if any: `InjectToHtml.MatchOfClosing`, `MatchIsClosing` and `MatchKeeps` |
| InjectToHtml.Sub | scripts/inject_to_html.py:15-16 | `re.sub` with the block, a newline and the match: `InjectToHtml.SubIsJoinOfCut`, `SubAtClosing`, `SubSkips`, `SubLeftmost`, `SubBeforeClosing`, `SubNeverShrinks` and `SubUnchanged` |
| InjectToHtml.Cut | scripts/inject_to_html.py:15-16 | the page cut in front of every match the scan takes: `InjectToHtml.CutPiecesStartWithMatch` and `SubIsJoinOfCut` |
| InjectToHtml.DomainOfFile | scripts/inject_to_html.py:8 | the generated file's name with "_partner.html" removed: `InjectToHtml.DomainOfOutputName` |
| InjectToHtml.TargetPath | scripts/inject_to_html.py:11 | the domain's `partners/index.html`: `InjectToHtml.InjectFile` and `InjectGenerated` |
| InjectToHtml.SkipSpace | scripts/inject_to_html.py:15 | a greedy `\s*` stops at the first non-whitespace character |
| InjectToHtml.MatchOfClosing | scripts/inject_to_html.py:15 | every closing sequence with whitespace runs is matched, in full |
| InjectToHtml.MatchIsClosing | scripts/inject_to_html.py:15 | every match is such a closing sequence |
| InjectToHtml.MatchKeeps | scripts/inject_to_html.py:15 | a match depends only on the text it spans |
| InjectToHtml.SubIsJoinOfCut | scripts/inject_to_html.py:15-16 | the substitution cuts the page in front of each match and joins the pieces with the block and a newline; the pieces rejoin to the page |
| InjectToHtml.CutPiecesStartWithMatch | scripts/inject_to_html.py:15-16 | every piece after the first starts with a match |
| InjectToHtml.SubAtClosing | scripts/inject_to_html.py:15-16 | a page starting with a closing sequence gets the block in front of it, and the scan goes on after it |
| InjectToHtml.SubSkips | scripts/inject_to_html.py:15-16 | text before the first match is copied unchanged |
| InjectToHtml.SubLeftmost | scripts/inject_to_html.py:15-16 | the leftmost match receives the block, and the scan resumes after it |
| InjectToHtml.SubBeforeClosing | scripts/inject_to_html.py:15-16 | in a page with one closing sequence and no match before it, the block goes right in front of that sequence |
| InjectToHtml.MatchGrows | scripts/inject_to_html.py:15-16 | a page with a match gets longer |
| InjectToHtml.SubNeverShrinks | scripts/inject_to_html.py:15-16 | the substitution never shortens the page |
| InjectToHtml.SubUnchanged | scripts/inject_to_html.py:15-16 | the page is left unchanged exactly when the pattern matches nowhere in it |
| InjectToHtml.DomainOfOutputName | scripts/inject_to_html.py:8 | the domain read back from a generated file's name is the domain it was generated for |
| InjectToHtml.InjectFile | scripts/inject_to_html.py:7-18 | a missing target raises; otherwise only the target changes, getting the substitution |
| InjectToHtml.InjectGenerated | scripts/inject_to_html.py:7-18 | a block generated for a domain lands in that domain's partner page |
| Generate.DomainOfLink | content-generation/generate.py:28 | the domain never holds '/' |
| Generate.ExtractDomain | content-generation/generate.py:22-29 | extraction never fails, and the domain it gives never holds '/' |
| Generate.DomainOfBareLink | content-generation/generate.py:28 | a link "host/path" gives the host with every "www." removed |
| Generate.DomainOfHttpsLink | content-generation/generate.py:28 | a link "https://host/path" gives the host with every "www." removed |
| Generate.LinkOfQuotedHref | content-generation/generate.py:23-25 | the link inside the first `href='...'` is returned exactly |
| Generate.LinkWithoutMarker | content-generation/generate.py:23-25 | without `href='` and without a quote from index 5 on (quotes before index 5 are never searched), the link is the text from index 5 up to its last character, excluded |
| Generate.LinkWithoutMarkerToQuote | content-generation/generate.py:23-25 | without `href='` but with a quote at index 5 or later, the link is the text from index 5 up to the first such quote |
| Generate.LinkWithoutClosingQuote | content-generation/generate.py:23-25 | without a closing quote, the link is the rest of the text minus its final character |
| Tree.Find | scripts/sftp_modify_inject.py:18 | a hit addresses a matching descendant; `Tree.FindFromSome` adds that no descendant before it in document order matches, and `FindFromNone` that no descendant matches when there is no hit |
| Tree.AppendAt | scripts/sftp_modify_inject.py:22-29 | appended nodes become the last children of the target, which keeps its tag and class; trimming them restores the tree |
| Tree.FindFromSome | scripts/sftp_modify_inject.py:18 | a found node matches, and no node before it in document order does |
| Tree.FindFromNone | scripts/sftp_modify_inject.py:18 | when nothing is found, no descendant matches |
| Remote.Rename | duplication/cleanup_duplicates.py:15 | a rename succeeds exactly when the source exists and the server allows it; it then moves the content, replaces any target and leaves other files alone |
| Remote.Retrieve | duplication/cleanup_duplicates.py:24 | a retrieval gives the stored content exactly when the file exists and the transfer works |
| Remote.Put | duplication/cleanup_duplicates.py:95 | a store succeeds exactly when the transfer works, and then overwrites only that name |

## Left out

- The transfer itself is not modelled. That covers ftplib sessions, logins, timeouts, `quit`, and text encoding and decoding (UTF-8 with errors ignored). Whether an operation fails is an input (`Faults`), and the directory holds already decoded pages.
- HTML parsing and serialisation (BeautifulSoup) are not modelled. `remove_duplicate_block.py` sees a page as its sequence of `div.client-wrapper` elements; `cleanup_duplicates.py` sees that sequence and, as one unparsed string, the markup around it. The injection script sees an element tree that holds only tags, class strings and text. The snippet parser is a function parameter.
- Class matching is simplified. `soup.find` with a multi-word class is modelled as an exact comparison with the class string, without BeautifulSoup's whitespace handling. The scaffold's `id='clients'` attribute is not represented.
- The `col-` parent of a wrapper is not modelled. `cleanup_duplicates.py` decomposes it when there is one, and the model removes the wrapper alone, because a `Page` has no parents. When one `col-` block holds several wrappers, the source also removes the kept ones; the model assumes one wrapper per block.
- Nested wrappers are not modelled: a `Page` is a flat sequence, so removing an outer wrapper never takes inner ones with it.
- Url.Netloc: the model follows RFC 3986's generic syntax. It does not model urlparse's removal of tab and newline characters, nor its removal of leading C0 control characters and spaces (`href.strip()` keeps U+0000-U+0008 and U+000E-U+001B, so the model keys `"\x01https://WWW.X.COM"` by its fallback "WWW.X.COM" where urlparse gives "x.com"), nor its `ValueError`s: on an authority with an unbalanced '[' or ']' or an invalid bracketed host, and on a non-ASCII netloc whose NFKC normalisation contains '/', '?', '#', '@' or ':' (a host holding U+2100, which normalises to "a/c"). The model gives such hrefs a key ("example.com]" for `https://example.com]`).
- CleanupDuplicates.ProcessDomain: always ends in one of its three statuses. In the source neither `ValueError` above (bracket or NFKC) is caught in `detect_and_remove_duplicates` (duplication/cleanup_duplicates.py:51): it is raised after `backup_file` has moved `index.html`, so that domain is left without `index.html`, and it ends `main`'s loop, so no later domain is processed. Neither effect is modelled.
- PyStr.Lower: only ASCII letters are lower-cased. `IsSpace` covers only the ASCII whitespace of `str.isspace`. The contract of `Lower` states only that the length is kept.
- PyStr.Replace and PyStr.Split require a non-empty pattern. Every call in the scripts passes a non-empty literal.
- InjectToHtml.InjectFile requires the block to hold no backslash. `re.sub` interprets escapes in the replacement string, and a block with one would be rewritten or rejected. That is not modelled.
- InjectToHtml.DomainOfOutputName requires the domain to hold no '_'. With one, the `replace` of `_partner.html` could also cut inside the domain.
- Generate.DomainOfHttpsLink covers "https://" links only. "http://" links behave the same and are not separately stated.
- The clock is not modelled. The instant is a parameter, and `Timestamp.Valid` bounds its fields as `strftime` prints them. The named wrappers `RemoveDuplicateBlock.CleanSite` and `SftpModifyInject.Handle` only fix the backup name and the fragment.
- The HTTP check after an upload only prints, so it is not modelled. The same goes for all console output, the `main` functions' environment-variable and JSON loading and the per-domain loops.
- Remote.Put: a store is all or nothing, so a failed `STOR` leaves the directory unchanged. A real `storbinary` creates the file once the server accepts `STOR`, so a transfer that fails part-way leaves a partial file under the name. So where `CleanupDuplicates.ProcessDomain` and `SftpModifyInject.HandleAs` say a failed upload leaves no `index.html`, and where `RemoveDuplicateBlock.CleanSiteAs` says a run stopped by a failed upload leaves `index.html` (or the backup) untouched, a partial file may in fact be there.
- Retrieval is treated as all or nothing: a failed retrieval contributes nothing to the page. In `cleanup_duplicates.py` the same buffer is used for both retrievals and is not reset, so bytes that a partly failed `RETR rollback.html` wrote would stay in front of the next file. A partial transfer is not modelled.
- The contents file is modelled as a map from domains to lists of texts. A domain mapped to a plain string, where `[0]` would pick its first character, is not modelled.
- File writes in `generate_partners.py` and `inject_to_html.py` are not modelled. Each is a whole-file overwrite, given as the value returned.
- The other scripts are not part of this model: the content generators that call a language model, `ftp_check.py` and the image uploader.
- `cleanup_duplicates.py` lower-cases the key only on the `netloc` branch. The fallback branch keeps the href's case, and the model follows the code, so `Example.com/x` and `example.com/x` get different keys.

=== FILE: cleanup_duplicates.dfy ===
/** `duplication/cleanup_duplicates.py`: for one site, move `index.html`
    aside to `rollback.html`, fetch a base page (rollback, else index, else
    an empty scaffold), drop every partner entry whose domain key also
    appears on a later entry, and upload the result as `index.html`. */
module CleanupDuplicates {
  import opened Options
  import opened PyStr
  import opened Url
  import opened Dedup
  import opened Remote
  import opened Partners

  const Index: string := "index.html"
  const Rollback: string := "rollback.html"

  /** The authority of an href, lower-cased, with every "www." removed. */
  function HostKey(href: string): string {
    Replace(Lower(Netloc(href)), "www.", "")
  }

  /** The key of an href without an authority: the text after the last "//"
      (or from the start, when there is no "//") up to the first '/', with
      "www." removed but the case left as written. */
  function FallbackKey(href: string): string {
    if Contains(href, "//") then Replace(Split(Last(Split(href, "//")), "/")[0], "www.", "")
    else Replace(Split(href, "/")[0], "www.", "")
  }

  /** The key of an already stripped href. */
  function StrippedKey(href: string): string {
    var host := HostKey(href);
    if host == "" && href != "" then FallbackKey(href) else host
  }

  /** The domain key of an href: that of the href with surrounding whitespace
      stripped. Empty means "no key". */
  function DomainKey(raw: string): string {
    StrippedKey(Strip(raw))
  }

  /** The key of a wrapper: that of the first anchor with an `href`, or none. */
  function CleanupKey(w: Wrapper): string {
    match FirstLinkWithHref(w.anchors)
    case None => ""
    case Some(a) => DomainKey(a.href.value)
  }

  lemma LowerKeepsSlashOut(s: string)
    requires '/' !in s
    ensures '/' !in Lower(s)
  {
  }

  /** A key never contains '/', whichever branch produced it. */
  lemma DomainKeyHasNoSlash(raw: string)
    ensures '/' !in DomainKey(raw)
  {
    var href := Strip(raw);
    var auth := Netloc(href);
    assert '/' !in auth by { assert !IsDelimiter('/') ==> false; }
    LowerKeepsSlashOut(auth);
    ReplaceChars(Lower(auth), "www.", "");
    var host := Replace(Lower(auth), "www.", "");
    if host == "" && href != "" {
      var piece := if Contains(href, "//") then Last(Split(href, "//")) else href;
      SplitPiecesFree(piece, "/");
      ContainsChar(Split(piece, "/")[0], '/');
      ReplaceChars(Split(piece, "/")[0], "www.", "");
    }
  }

  /** Surrounding whitespace never changes the key. */
  lemma DomainKeyIgnoresSpace(raw: string)
    ensures DomainKey(Strip(raw)) == DomainKey(raw)
  {
    StripIdempotent(raw);
  }

  /** An empty or all-blank href has no key. */
  lemma BlankHrefHasNoKey(raw: string)
    requires AllSpace(raw)
    ensures DomainKey(raw) == ""
  {
    assert raw + "" + "" == raw;
    StripExact(raw, "", "");
  }

  /** An absolute URL, whatever whitespace surrounds it, is keyed by its
      authority lower-cased with every "www." removed. */
  lemma KeyOfAbsoluteUrl(pre: string, scheme: string, auth: string, tail: string, post: string)
    requires AllSpace(pre) && AllSpace(post)
    requires IsScheme(scheme) && NoDelimiter(auth)
    requires tail == "" || IsDelimiter(tail[0])
    requires Trimmed(scheme + "://" + auth + tail)
    requires Replace(Lower(auth), "www.", "") != ""
    ensures DomainKey(pre + (scheme + "://" + auth + tail) + post) == Replace(Lower(auth), "www.", "")
  {
    StripExact(pre, scheme + "://" + auth + tail, post);
    NetlocOfAbsolute(scheme, auth, tail);
  }

  /** A protocol-relative href "//host/..." is keyed like an absolute one. */
  lemma KeyOfProtocolRelative(pre: string, auth: string, tail: string, post: string)
    requires AllSpace(pre) && AllSpace(post)
    requires NoDelimiter(auth)
    requires tail == "" || IsDelimiter(tail[0])
    requires Trimmed("//" + auth + tail)
    requires Replace(Lower(auth), "www.", "") != ""
    ensures DomainKey(pre + ("//" + auth + tail) + post) == Replace(Lower(auth), "www.", "")
  {
    StripExact(pre, "//" + auth + tail, post);
    NetlocOfProtocolRelative(auth, tail);
  }

  /** An href without an authority has an empty host key. */
  lemma NoAuthorityNoHostKey(href: string)
    requires Netloc(href) == ""
    ensures HostKey(href) == ""
  {
    assert Lower("") == "";
  }

  /** An href without "//", such as "Example.com/page", is keyed by the text
      before its first '/', with "www." removed and its case kept. */
  lemma KeyOfBareHost(pre: string, host: string, tail: string, post: string)
    requires AllSpace(pre) && AllSpace(post)
    requires host != "" && '/' !in host
    requires tail == "" || tail[0] == '/'
    requires Trimmed(host + tail) && !Contains(host + tail, "//")
    ensures DomainKey(pre + (host + tail) + post) == Replace(host, "www.", "")
  {
    var href := host + tail;
    StripExact(pre, href, post);
    NetlocNeedsDoubleSlash(href);
    NoAuthorityNoHostKey(href);
    SplitHeadBefore(host, '/', tail);
    assert FallbackKey(href) == Replace(host, "www.", "");
  }

  /** When `x` has no ':' and does not start with '/', an href "x//..." has
      no scheme (the text before its first ':', if any, holds a '/') and, not
      starting with "//", no authority. */
  lemma NoAuthorityBeforeDoubleSlash(x: string, y: string)
    requires x != "" && x[0] != '/' && ':' !in x
    ensures Netloc(x + "//" + y) == ""
  {
    var href := x + "//" + y;
    var i := Find(href, ":", 0);
    assert href[|x|] == '/';
    if i >= 0 {
      assert href[i..i + 1][0] == href[i];
      assert href[i] == ':';
      assert i >= |x| by {
        assert forall k :: 0 <= k < |x| ==> href[k] == x[k];
      }
      assert href[..i][|x|] == '/';
      assert !IsScheme(href[..i]);
    }
    assert AfterScheme(href) == href;
    assert href[..2][0] == x[0];
  }

  /** When the text before the first '/' has no ':' there is no authority, so
      an href "x//host/..." is keyed by the text after its LAST "//" up to the
      next '/', with "www." removed and its case kept. `x` may itself hold
      "//" (as in "a//b//host/x"), but must not end with '/'. */
  lemma KeyAfterDoubleSlash(pre: string, x: string, host: string, tail: string, post: string)
    requires AllSpace(pre) && AllSpace(post)
    requires x != "" && x[0] != '/' && x[|x| - 1] != '/' && ':' !in x
    requires '/' !in host && (tail == "" || tail[0] == '/')
    requires !Contains(host + tail, "//")
    requires Trimmed(x + "//" + (host + tail))
    ensures DomainKey(pre + (x + "//" + (host + tail)) + post) == Replace(host, "www.", "")
  {
    var href := x + "//" + (host + tail);
    StripExact(pre, href, post);
    NoAuthorityBeforeDoubleSlash(x, host + tail);
    NoAuthorityNoHostKey(href);
    FallbackAfterDoubleSlash(x, host, tail);
  }

  lemma FallbackAfterDoubleSlash(x: string, host: string, tail: string)
    requires x == "" || x[|x| - 1] != '/'
    requires '/' !in host && (tail == "" || tail[0] == '/')
    requires !Contains(host + tail, "//")
    ensures FallbackKey(x + "//" + (host + tail)) == Replace(host, "www.", "")
  {
    var href := x + "//" + (host + tail);
    assert HasAt(href, "//", |x|) by { assert href[|x|..|x| + 2] == "//"; }
    LastPieceAfter(x, host + tail);
    SplitHeadBefore(host, '/', tail);
  }

  /** `split("//")[-1]`: the text after the last "//" is the last piece, and
      there are at least two pieces. */
  lemma {:induction false} LastPieceAfter(x: string, y: string)
    requires x == "" || x[|x| - 1] != '/'
    requires !Contains(y, "//")
    ensures |Split(x + "//" + y, "//")| >= 2
    ensures Last(Split(x + "//" + y, "//")) == y
    decreases |x|
  {
    var s := x + "//" + y;
    AbsentPattern(y, "//", "");
    if |x| == 0 {
      assert s[..2] == "//" && s[2..] == y;
    } else if s[..2] == "//" {
      assert |x| >= 2 by {
        assert s[..2][0] == x[0] && s[..2][1] == s[1];
      }
      assert s[2..] == x[2..] + "//" + y;
      assert x[2..] == "" || x[2..][|x[2..]| - 1] == x[|x| - 1];
      LastPieceAfter(x[2..], y);
    } else {
      assert s[1..] == x[1..] + "//" + y;
      assert x[1..] == "" || x[1..][|x[1..]| - 1] == x[|x| - 1];
      LastPieceAfter(x[1..], y);
    }
  }

  /** Replacing "www." in "www." + s, when s has no 'w', leaves s. */
  lemma DropLeadingWww(s: string)
    requires 'w' !in s
    ensures Replace("www." + s, "www.", "") == s
  {
    assert ("www." + s)[..4] == "www.";
    assert ("www." + s)[4..] == s;
    NoCharOfPattern(s, "www.", 0);
    AbsentPattern(s, "www.", "");
  }

  lemma WwwExampleHost()
    ensures NoDelimiter("www.Example.com")
    ensures Replace(Lower("www.Example.com"), "www.", "") == "example.com"
  {
    var auth := "www.Example.com";
    assert '/' !in auth && '?' !in auth && '#' !in auth;
    forall k | 0 <= k < |auth| ensures !IsDelimiter(auth[k]) {
      assert auth[k] in auth;
    }
    assert Lower(auth) == "www." + "example.com";
    DropLeadingWww("example.com");
  }

  /** The usual case: "https://www.Example.com/x" is keyed "example.com". */
  lemma KeyOfWwwUrl()
    ensures DomainKey("https://www.Example.com/x") == "example.com"
  {
    var auth := "www.Example.com";
    var url := "https" + "://" + auth + "/x";
    assert url == "https://www.Example.com/x" by {
      assert |url| == 25;
    }
    assert "" + url + "" == url;
    assert IsScheme("https");
    assert Trimmed(url);
    WwwExampleHost();
    KeyOfAbsoluteUrl("", "https", auth, "/x", "");
  }

  /** `detect_and_remove_duplicates`: walks the wrappers from last to first,
      keeping a wrapper unless its (non-empty) key was already seen further
      down the page. The result is the last-wins selection, its keys are
      pairwise distinct, `removed` counts the dropped wrappers, and nothing is
      removed exactly when the page had no duplicate keys. */
  method DetectAndRemoveDuplicates(page: Page) returns (out: Page, removed: nat)
    ensures out == LastWins(page, CleanupKey)
    ensures DistinctKeys(out, CleanupKey)
    ensures removed == |page| - |out|
    ensures removed == 0 <==> DistinctKeys(page, CleanupKey)
  {
    var seen: set<string> := {};
    out := [];
    removed := 0;
    var i := |page|;
    while i > 0
      invariant 0 <= i <= |page|
      invariant seen == Keys(page[i..], CleanupKey)
      invariant out == LastWins(page[i..], CleanupKey)
      invariant removed + |out| == |page| - i
    {
      i := i - 1;
      assert page[i..][1..] == page[i + 1..];
      var key := CleanupKey(page[i]);
      if key != "" && key in seen {
        removed := removed + 1;
      } else {
        out := [page[i]] + out;
        if key != "" {
          seen := seen + {key};
        }
      }
    }
    assert page[0..] == page;
    LastWinsDistinct(page, CleanupKey);
    LastWinsShrinks(page, CleanupKey);
    LastWinsFixpoint(page, CleanupKey);
  }

  /** A page as the cleanup sees it: the markup outside its partner
      wrappers, which the cleanup never changes, and the wrappers in document
      order. */
  datatype Html = Html(frame: string, wrappers: Page)

  /** The markup written when no base file can be fetched. */
  const FallbackFrame: string :=
    "<html><body><section id='clients'><div class='row align-center justify-content-center'></div></section></body></html>"

  /** The page uploaded when no base file can be fetched: the fallback
      markup, with no partner entries. */
  const Scaffold: Html := Html(FallbackFrame, [])

  /** `detect_and_remove_duplicates` on a whole page: the markup around the
      wrappers stays, the wrappers are thinned to the last of each key. No
      key is lost, no two survivors share one, and the page comes back
      unchanged exactly when it had no duplicates. */
  function Cleanup(h: Html): (r: Html)
    ensures r.frame == h.frame
    ensures Keys(r.wrappers, CleanupKey) == Keys(h.wrappers, CleanupKey)
    ensures DistinctKeys(r.wrappers, CleanupKey)
    ensures r == h <==> DistinctKeys(h.wrappers, CleanupKey)
  {
    LastWinsKeys(h.wrappers, CleanupKey);
    LastWinsDistinct(h.wrappers, CleanupKey);
    LastWinsFixpoint(h.wrappers, CleanupKey);
    Html(h.frame, LastWins(h.wrappers, CleanupKey))
  }

  /** `backup_file`: rename `index.html` to `rollback.html`; any error,
      including a missing `index.html`, is ignored. */
  function BackupFile(st: Store<Html>, f: Faults): (r: Store<Html>)
    ensures Index in st && f.rename.NoRenameFault? ==>
      Index !in r && Rollback in r && r[Rollback] == st[Index]
    ensures !(Index in st && f.rename.NoRenameFault?) ==> r == st
    ensures forall n :: n != Index && n != Rollback ==>
      (n in r <==> n in st) && (n in st ==> r[n] == st[n])
  {
    match Rename(st, Index, Rollback, f)
    case Renamed(after) => after
    case _ => st
  }

  /** `fetch_html`: `rollback.html` if it can be retrieved, else
      `index.html`, else the scaffold. */
  function FetchHtml(st: Store<Html>, f: Faults): (p: Html)
    ensures Rollback in st && Rollback !in f.retrieve ==> p == st[Rollback]
    ensures !(Rollback in st && Rollback !in f.retrieve) && Index in st && Index !in f.retrieve ==>
      p == st[Index]
    ensures !(Rollback in st && Rollback !in f.retrieve) && !(Index in st && Index !in f.retrieve) ==>
      p == Scaffold
  {
    match Retrieve(st, Rollback, f)
    case Some(p) => p
    case None =>
      match Retrieve(st, Index, f)
      case Some(p) => p
      case None => Scaffold
  }

  datatype Status = ConnectFailed | UploadFailed | Uploaded

  /** How a run ended, and the remote directory it left behind. */
  datatype Run = Run(status: Status, store: Store<Html>)

  /** `process_domain`: connect, back up, fetch, deduplicate, upload. A
      failed connection touches nothing; a failed upload is reported and not
      raised, and after a successful backup it leaves the site without an
      `index.html`, the old page surviving only as `rollback.html`. Only
      `index.html` and `rollback.html` can change. */
  function ProcessDomain(st: Store<Html>, f: Faults): (r: Run)
    ensures f.connect ==> r == Run(ConnectFailed, st)
    ensures forall n :: n != Index && n != Rollback ==>
      (n in r.store <==> n in st) && (n in st ==> r.store[n] == st[n])
    ensures !f.connect && Index in st && f.rename.NoRenameFault? ==>
      Rollback in r.store && r.store[Rollback] == st[Index]
    ensures !f.connect && Index in f.store ==>
      r.status == UploadFailed && (Index in st && f.rename.NoRenameFault? ==> Index !in r.store)
    ensures !f.connect && Index !in f.store ==>
      && r.status == Uploaded && Index in r.store
      && r.store[Index] == Cleanup(FetchHtml(BackupFile(st, f), f))
  {
    if f.connect then Run(ConnectFailed, st)
    else
      var backed := BackupFile(st, f);
      match Put(backed, Index, Cleanup(FetchHtml(backed, f)), f)
      case None => Run(UploadFailed, backed)
      case Some(after) => Run(Uploaded, after)
  }

  /** With no faults, a site with an `index.html` ends with the deduplicated
      page live and the original kept as `rollback.html`. */
  lemma ProcessDomainNoFaults(st: Store<Html>)
    requires Index in st
    ensures var r := ProcessDomain(st, NoFaults);
      && r.status == Uploaded
      && r.store[Index] == Cleanup(st[Index])
      && r.store[Rollback] == st[Index]
  {
  }

  /** A failed rename (any error is tolerated) while an earlier run's
      `rollback.html` is still there: the stale rollback is the base, so the
      live page is replaced by the deduplicated old one. */
  lemma ProcessDomainStaleRollback(st: Store<Html>, f: Faults)
    requires !f.connect && !f.rename.NoRenameFault? && Index in st
    requires Rollback in st && Rollback !in f.retrieve && Index !in f.store
    ensures var r := ProcessDomain(st, f);
      && r.status == Uploaded && r.store[Rollback] == st[Rollback]
      && r.store[Index] == Cleanup(st[Rollback])
  {
  }

  /** A successful rename whose `rollback.html` then cannot be retrieved:
      `index.html` is gone too, so the fallback markup is published in place
      of the whole live page, frame and entries, and the old page survives
      only as `rollback.html`. */
  lemma ProcessDomainRollbackUnreadable(st: Store<Html>, f: Faults)
    requires !f.connect && f.rename.NoRenameFault? && Index in st
    requires Rollback in f.retrieve && Index !in f.store
    ensures var r := ProcessDomain(st, f);
      && r.status == Uploaded && r.store[Rollback] == st[Index]
      && r.store[Index] == Scaffold
      && (st[Index].frame != FallbackFrame ==> r.store[Index].frame != st[Index].frame)
  {
  }

  /** A site without `index.html` republishes whatever `rollback.html` an
      earlier run left, deduplicated; one with neither file gets the empty
      scaffold. */
  lemma ProcessDomainNoIndex(st: Store<Html>)
    requires Index !in st
    ensures var r := ProcessDomain(st, NoFaults);
      && r.status == Uploaded
      && r.store[Index] == (if Rollback in st then Cleanup(st[Rollback]) else Scaffold)
  {
  }
}

=== FILE: dedup.dfy ===
/** The two duplicate-removal policies the scripts apply to the partner
    entries of a page, stated over any entry type and a key function. An
    entry whose key is empty is never removed and never marks a key as seen.

    - last-wins: among entries sharing a key only the last one survives
      (the scan of `detect_and_remove_duplicates` runs in reverse);
    - first-wins: among entries sharing a key only the first one survives
      (the forward scan of `remove_duplicate_block.py`).

    Both are given here as reference definitions, each also characterised
    entry by entry through a keep-mask; the scripts' seen-set loops are
    proved equal to them in their own modules. */
module Dedup {

  /** The non-empty keys carried by `ws`. */
  function Keys<T>(ws: seq<T>, key: T -> string): set<string>
    decreases |ws|
  {
    if |ws| == 0 then {}
    else (if key(ws[0]) == "" then {} else {key(ws[0])}) + Keys(ws[1..], key)
  }

  /** No two keyed entries share a key. */
  predicate DistinctKeys<T>(ws: seq<T>, key: T -> string) {
    forall p, q :: 0 <= p < q < |ws| && key(ws[p]) != "" ==> key(ws[p]) != key(ws[q])
  }

  /** Entry `i` survives last-wins: it has no key, or no later entry has it. */
  predicate KeptLast<T>(ws: seq<T>, key: T -> string, i: int)
    requires 0 <= i < |ws|
  {
    key(ws[i]) == "" || forall j :: i < j < |ws| ==> key(ws[j]) != key(ws[i])
  }

  /** Entry `i` survives first-wins: it has no key, or no earlier entry has it. */
  predicate KeptFirst<T>(ws: seq<T>, key: T -> string, i: int)
    requires 0 <= i < |ws|
  {
    key(ws[i]) == "" || forall j :: 0 <= j < i ==> key(ws[j]) != key(ws[i])
  }

  ghost function LastMask<T>(ws: seq<T>, key: T -> string): (m: seq<bool>)
    ensures |m| == |ws|
  {
    seq(|ws|, i requires 0 <= i < |ws| => KeptLast(ws, key, i))
  }

  ghost function FirstMask<T>(ws: seq<T>, key: T -> string): (m: seq<bool>)
    ensures |m| == |ws|
  {
    seq(|ws|, i requires 0 <= i < |ws| => KeptFirst(ws, key, i))
  }

  /** The entries whose flag is set, in their original order. */
  function Select<T>(ws: seq<T>, keep: seq<bool>): seq<T>
    requires |keep| == |ws|
    decreases |ws|
  {
    if |ws| == 0 then []
    else (if keep[0] then [ws[0]] else []) + Select(ws[1..], keep[1..])
  }

  /** Last-wins: an entry is dropped when a later entry carries its key. */
  function LastWins<T>(ws: seq<T>, key: T -> string): seq<T>
    decreases |ws|
  {
    if |ws| == 0 then []
    else
      var rest := LastWins(ws[1..], key);
      if key(ws[0]) != "" && key(ws[0]) in Keys(ws[1..], key) then rest else [ws[0]] + rest
  }

  /** First-wins: an entry is dropped when an earlier entry carries its key. */
  function FirstWins<T>(ws: seq<T>, key: T -> string): seq<T>
    decreases |ws|
  {
    if |ws| == 0 then []
    else
      var init := ws[..|ws| - 1];
      var w := ws[|ws| - 1];
      if key(w) != "" && key(w) in Keys(init, key) then FirstWins(init, key)
      else FirstWins(init, key) + [w]
  }

  /** The survivors of last-wins among `a` when entries carrying the keys
      `later` follow it. */
  function LastWinsBefore<T>(a: seq<T>, later: set<string>, key: T -> string): seq<T>
    decreases |a|
  {
    if |a| == 0 then []
    else
      var rest := LastWinsBefore(a[1..], later, key);
      if key(a[0]) != "" && key(a[0]) in Keys(a[1..], key) + later then rest else [a[0]] + rest
  }

  /** The survivors of first-wins among `b` when entries carrying the keys
      `earlier` precede it. */
  function FirstWinsAfter<T>(b: seq<T>, earlier: set<string>, key: T -> string): seq<T>
    decreases |b|
  {
    if |b| == 0 then []
    else
      var init := b[..|b| - 1];
      var x := b[|b| - 1];
      var prev := FirstWinsAfter(init, earlier, key);
      if key(x) != "" && key(x) in earlier + Keys(init, key) then prev else prev + [x]
  }

  /** A key is in `Keys` exactly when it is non-empty and some entry has it. */
  lemma {:induction false} KeysMember<T>(ws: seq<T>, key: T -> string, k: string)
    ensures k in Keys(ws, key) <==> k != "" && exists i :: 0 <= i < |ws| && key(ws[i]) == k
    decreases |ws|
  {
    if |ws| > 0 {
      KeysMember(ws[1..], key, k);
      if k != "" && key(ws[0]) != k && exists i :: 0 <= i < |ws| && key(ws[i]) == k {
        var i :| 0 <= i < |ws| && key(ws[i]) == k;
        assert key(ws[1..][i - 1]) == k;
      }
    }
  }

  lemma {:induction false} KeysConcat<T>(a: seq<T>, b: seq<T>, key: T -> string)
    ensures Keys(a + b, key) == Keys(a, key) + Keys(b, key)
    decreases |a|
  {
    if |a| == 0 {
      assert a + b == b;
    } else {
      assert (a + b)[1..] == a[1..] + b;
      KeysConcat(a[1..], b, key);
    }
  }

  lemma SelectSnoc<T>(ws: seq<T>, keep: seq<bool>, w: T, b: bool)
    requires |keep| == |ws|
    ensures Select(ws + [w], keep + [b]) == Select(ws, keep) + (if b then [w] else [])
    decreases |ws|
  {
    if |ws| > 0 {
      assert (ws + [w])[1..] == ws[1..] + [w];
      assert (keep + [b])[1..] == keep[1..] + [b];
      SelectSnoc(ws[1..], keep[1..], w, b);
    }
  }

  /** Last-wins keeps exactly the entries that have no key or whose key does
      not occur later, in their original order. */
  lemma {:induction false} LastWinsKeepsExactly<T>(ws: seq<T>, key: T -> string)
    ensures LastWins(ws, key) == Select(ws, LastMask(ws, key))
    decreases |ws|
  {
    if |ws| > 0 {
      var tail := ws[1..];
      LastWinsKeepsExactly(tail, key);
      var m := LastMask(ws, key);
      assert m[1..] == LastMask(tail, key) by {
        forall i | 0 <= i < |tail|
          ensures m[1..][i] == LastMask(tail, key)[i]
        {
          assert forall j :: i + 1 < j < |ws| ==> ws[j] == tail[j - 1];
          assert forall j :: i < j < |tail| ==> tail[j] == ws[j + 1];
        }
      }
      KeysMember(tail, key, key(ws[0]));
      assert m[0] <==> !(key(ws[0]) != "" && key(ws[0]) in Keys(tail, key)) by {
        if key(ws[0]) != "" && key(ws[0]) in Keys(tail, key) {
          var i :| 0 <= i < |tail| && key(tail[i]) == key(ws[0]);
          assert key(ws[i + 1]) == key(ws[0]);
        }
        if m[0] == false {
          var j :| 0 < j < |ws| && key(ws[j]) == key(ws[0]);
          assert key(tail[j - 1]) == key(ws[0]);
        }
      }
    }
  }

  /** First-wins keeps exactly the entries that have no key or whose key does
      not occur earlier, in their original order. */
  lemma {:induction false} FirstWinsKeepsExactly<T>(ws: seq<T>, key: T -> string)
    ensures FirstWins(ws, key) == Select(ws, FirstMask(ws, key))
    decreases |ws|
  {
    if |ws| > 0 {
      var n := |ws| - 1;
      var init := ws[..n];
      var w := ws[n];
      FirstWinsKeepsExactly(init, key);
      var m := FirstMask(ws, key);
      assert m[..n] == FirstMask(init, key);
      KeysMember(init, key, key(w));
      assert m[n] <==> !(key(w) != "" && key(w) in Keys(init, key)) by {
        if key(w) != "" && key(w) in Keys(init, key) {
          var i :| 0 <= i < |init| && key(init[i]) == key(w);
          assert key(ws[i]) == key(w);
        }
      }
      assert ws == init + [w];
      assert m == m[..n] + [m[n]];
      SelectSnoc(init, m[..n], w, m[n]);
    }
  }

  /** Last-wins loses no key: every key of the page is still carried by a
      survivor. */
  lemma {:induction false} LastWinsKeys<T>(ws: seq<T>, key: T -> string)
    ensures Keys(LastWins(ws, key), key) == Keys(ws, key)
    decreases |ws|
  {
    if |ws| > 0 {
      var rest := LastWins(ws[1..], key);
      LastWinsKeys(ws[1..], key);
      assert ([ws[0]] + rest)[1..] == rest;
    }
  }

  /** First-wins loses no key either. */
  lemma {:induction false} FirstWinsKeys<T>(ws: seq<T>, key: T -> string)
    ensures Keys(FirstWins(ws, key), key) == Keys(ws, key)
    decreases |ws|
  {
    if |ws| > 0 {
      var n := |ws| - 1;
      var init := ws[..n];
      FirstWinsKeys(init, key);
      assert ws == init + [ws[n]];
      KeysConcat(init, [ws[n]], key);
      KeysConcat(FirstWins(init, key), [ws[n]], key);
    }
  }

  /** After last-wins no two keyed survivors share a key. */
  lemma {:induction false} LastWinsDistinct<T>(ws: seq<T>, key: T -> string)
    ensures DistinctKeys(LastWins(ws, key), key)
    decreases |ws|
  {
    if |ws| > 0 {
      var tail := ws[1..];
      var rest := LastWins(tail, key);
      LastWinsDistinct(tail, key);
      if !(key(ws[0]) != "" && key(ws[0]) in Keys(tail, key)) {
        var r := [ws[0]] + rest;
        LastWinsKeys(tail, key);
        forall q | 0 < q < |r| && key(ws[0]) != ""
          ensures key(ws[0]) != key(r[q])
        {
          KeysMember(rest, key, key(ws[0]));
          assert r[q] == rest[q - 1];
        }
        forall p, q | 0 <= p < q < |r| && key(r[p]) != ""
          ensures key(r[p]) != key(r[q])
        {
          if p > 0 {
            assert r[p] == rest[p - 1] && r[q] == rest[q - 1];
          }
        }
      }
    }
  }

  /** After first-wins no two keyed survivors share a key. */
  lemma {:induction false} FirstWinsDistinct<T>(ws: seq<T>, key: T -> string)
    ensures DistinctKeys(FirstWins(ws, key), key)
    decreases |ws|
  {
    if |ws| > 0 {
      var n := |ws| - 1;
      var init := ws[..n];
      var w := ws[n];
      var prev := FirstWins(init, key);
      FirstWinsDistinct(init, key);
      if !(key(w) != "" && key(w) in Keys(init, key)) {
        var r := prev + [w];
        FirstWinsKeys(init, key);
        forall p | 0 <= p < |prev| && key(r[p]) != ""
          ensures key(r[p]) != key(w)
        {
          KeysMember(prev, key, key(prev[p]));
          assert r[p] == prev[p];
        }
        forall p, q | 0 <= p < q < |r| && key(r[p]) != ""
          ensures key(r[p]) != key(r[q])
        {
          if q < |prev| {
            assert r[p] == prev[p] && r[q] == prev[q];
          }
        }
      }
    }
  }

  /** Last-wins leaves a page unchanged exactly when it already has no
      duplicate keys. */
  lemma {:induction false} LastWinsFixpoint<T>(ws: seq<T>, key: T -> string)
    ensures LastWins(ws, key) == ws <==> DistinctKeys(ws, key)
    decreases |ws|
  {
    if LastWins(ws, key) == ws {
      LastWinsDistinct(ws, key);
    }
    if DistinctKeys(ws, key) && |ws| > 0 {
      var tail := ws[1..];
      assert DistinctKeys(tail, key) by {
        forall p, q | 0 <= p < q < |tail| && key(tail[p]) != ""
          ensures key(tail[p]) != key(tail[q])
        {
          assert tail[p] == ws[p + 1] && tail[q] == ws[q + 1];
        }
      }
      LastWinsFixpoint(tail, key);
      KeysMember(tail, key, key(ws[0]));
    }
  }

  /** First-wins leaves a page unchanged exactly when it already has no
      duplicate keys. */
  lemma {:induction false} FirstWinsFixpoint<T>(ws: seq<T>, key: T -> string)
    ensures FirstWins(ws, key) == ws <==> DistinctKeys(ws, key)
    decreases |ws|
  {
    if FirstWins(ws, key) == ws {
      FirstWinsDistinct(ws, key);
    }
    if DistinctKeys(ws, key) && |ws| > 0 {
      var n := |ws| - 1;
      var init := ws[..n];
      var w := ws[n];
      assert DistinctKeys(init, key) by {
        forall p, q | 0 <= p < q < |init| && key(init[p]) != ""
          ensures key(init[p]) != key(init[q])
        {
          assert init[p] == ws[p] && init[q] == ws[q];
        }
      }
      FirstWinsFixpoint(init, key);
      KeysMember(init, key, key(w));
      assert ws == init + [w];
    }
  }

  /** Running last-wins a second time removes nothing. */
  lemma LastWinsIdempotent<T>(ws: seq<T>, key: T -> string)
    ensures LastWins(LastWins(ws, key), key) == LastWins(ws, key)
  {
    LastWinsDistinct(ws, key);
    LastWinsFixpoint(LastWins(ws, key), key);
  }

  /** Running first-wins a second time removes nothing. */
  lemma FirstWinsIdempotent<T>(ws: seq<T>, key: T -> string)
    ensures FirstWins(FirstWins(ws, key), key) == FirstWins(ws, key)
  {
    FirstWinsDistinct(ws, key);
    FirstWinsFixpoint(FirstWins(ws, key), key);
  }

  /** A keyless entry at the end of the page, the first one the reverse scan
      visits, survives and marks nothing as seen: the rest of the outcome is
      as if it were absent. */
  lemma {:induction false} LastWinsKeylessLast<T>(ws: seq<T>, w: T, key: T -> string)
    requires key(w) == ""
    ensures LastWins(ws + [w], key) == LastWins(ws, key) + [w]
    decreases |ws|
  {
    if |ws| == 0 {
      assert [w][1..] == [];
    } else {
      assert (ws + [w])[1..] == ws[1..] + [w];
      KeysConcat(ws[1..], [w], key);
      assert Keys([w], key) == {} by { assert [w][1..] == []; }
      LastWinsKeylessLast(ws[1..], w, key);
    }
  }

  /** A keyless entry at the start of the page survives first-wins and marks
      nothing as seen. */
  lemma {:induction false} FirstWinsKeylessFirst<T>(w: T, ws: seq<T>, key: T -> string)
    requires key(w) == ""
    ensures FirstWins([w] + ws, key) == [w] + FirstWins(ws, key)
    decreases |ws|
  {
    if |ws| == 0 {
      assert [w] + ws == [w];
      assert [w][..0] == [];
    } else {
      var n := |ws| - 1;
      var s := [w] + ws;
      assert s[..|s| - 1] == [w] + ws[..n];
      assert s[|s| - 1] == ws[n];
      KeysConcat([w], ws[..n], key);
      assert Keys([w], key) == {} by { assert [w][1..] == []; }
      FirstWinsKeylessFirst(w, ws[..n], key);
    }
  }

  /** Last-wins on a split page: the survivors of the back part are its own
      last-wins survivors, and those of the front part depend on the back
      part only through the keys it carries. */
  lemma {:induction false} LastWinsConcat<T>(a: seq<T>, b: seq<T>, key: T -> string)
    ensures LastWins(a + b, key) == LastWinsBefore(a, Keys(b, key), key) + LastWins(b, key)
    decreases |a|
  {
    if |a| == 0 {
      assert a + b == b;
    } else {
      assert (a + b)[0] == a[0];
      assert (a + b)[1..] == a[1..] + b;
      KeysConcat(a[1..], b, key);
      LastWinsConcat(a[1..], b, key);
    }
  }

  /** First-wins on a split page: the survivors of the front part are its
      own first-wins survivors, and those of the back part depend on the
      front part only through the keys it carries. */
  lemma {:induction false} FirstWinsConcat<T>(a: seq<T>, b: seq<T>, key: T -> string)
    ensures FirstWins(a + b, key) == FirstWins(a, key) + FirstWinsAfter(b, Keys(a, key), key)
    decreases |b|
  {
    if |b| == 0 {
      assert a + b == a;
    } else {
      var n := |b| - 1;
      var s := a + b;
      assert s[..|s| - 1] == a + b[..n];
      assert s[|s| - 1] == b[n];
      KeysConcat(a, b[..n], key);
      FirstWinsConcat(a, b[..n], key);
    }
  }

  /** A keyless entry anywhere in the page survives last-wins, in its place,
      and marks nothing as seen: the survivors around it are exactly those
      of the page without it. */
  lemma LastWinsKeyless<T>(a: seq<T>, w: T, b: seq<T>, key: T -> string)
    requires key(w) == ""
    ensures var front := LastWinsBefore(a, Keys(b, key), key);
      && LastWins(a + [w] + b, key) == front + [w] + LastWins(b, key)
      && LastWins(a + b, key) == front + LastWins(b, key)
  {
    assert a + [w] + b == a + ([w] + b);
    LastWinsConcat(a, [w] + b, key);
    LastWinsConcat(a, b, key);
    KeysConcat([w], b, key);
    assert Keys([w], key) == {} by { assert [w][1..] == []; }
    assert ([w] + b)[1..] == b;
    assert LastWins([w] + b, key) == [w] + LastWins(b, key);
    assert Keys([w] + b, key) == Keys(b, key);
    var front := LastWinsBefore(a, Keys(b, key), key);
    assert front + ([w] + LastWins(b, key)) == front + [w] + LastWins(b, key);
  }

  /** A keyless entry anywhere in the page survives first-wins, in its
      place, and marks nothing as seen: the survivors around it are exactly
      those of the page without it. */
  lemma FirstWinsKeyless<T>(a: seq<T>, w: T, b: seq<T>, key: T -> string)
    requires key(w) == ""
    ensures var back := FirstWinsAfter(b, Keys(a, key), key);
      && FirstWins(a + [w] + b, key) == FirstWins(a, key) + [w] + back
      && FirstWins(a + b, key) == FirstWins(a, key) + back
  {
    FirstWinsConcat(a + [w], b, key);
    FirstWinsConcat(a, b, key);
    KeysConcat(a, [w], key);
    assert Keys([w], key) == {} by { assert [w][1..] == []; }
    assert (a + [w])[..|a|] == a;
    assert FirstWins(a + [w], key) == FirstWins(a, key) + [w];
    assert Keys(a + [w], key) == Keys(a, key);
  }

  /** Last-wins only drops entries, and it keeps them all exactly when the
      result is the input itself. */
  lemma {:induction false} LastWinsShrinks<T>(ws: seq<T>, key: T -> string)
    ensures |LastWins(ws, key)| <= |ws|
    ensures |LastWins(ws, key)| == |ws| ==> LastWins(ws, key) == ws
    decreases |ws|
  {
    if |ws| > 0 {
      LastWinsShrinks(ws[1..], key);
      assert ws == [ws[0]] + ws[1..];
    }
  }

  /** First-wins only drops entries, and it keeps them all exactly when the
      result is the input itself. */
  lemma {:induction false} FirstWinsShrinks<T>(ws: seq<T>, key: T -> string)
    ensures |FirstWins(ws, key)| <= |ws|
    ensures |FirstWins(ws, key)| == |ws| ==> FirstWins(ws, key) == ws
    decreases |ws|
  {
    if |ws| > 0 {
      FirstWinsShrinks(ws[..|ws| - 1], key);
      assert ws == ws[..|ws| - 1] + [ws[|ws| - 1]];
    }
  }
}

=== FILE: generate.dfy ===
/** `extract_domain` of `content-generation/generate.py`: the link is the
    text after the first `href='` up to the next `'`, found with `str.find`
    and cut with a slice, so a missing marker or quote silently shifts the
    bounds instead of failing; the domain is the link with `https://`,
    `http://` and `www.` removed, cut at the first '/'. */
module Generate {
  import opened PyStr

  const Marker: string := "href='"

  datatype Extracted = Extracted(domain: string, link: string)

  /** The domain of a link: every `https://`, then every `http://`, then
      every `www.` removed, and the text before the first '/'. It never holds
      a '/'. */
  function DomainOfLink(link: string): (domain: string)
    ensures '/' !in domain
  {
    var bare := Replace(Replace(Replace(link, "https://", ""), "http://", ""), "www.", "");
    SplitPiecesFree(bare, "/");
    ContainsChar(Split(bare, "/")[0], '/');
    Split(bare, "/")[0]
  }

  /** The domain and the link of a seed text; total, whatever the text. */
  function ExtractDomain(seed: string): (r: Extracted)
    ensures '/' !in r.domain
  {
    var start := Find(seed, Marker, 0) + 6;
    var end := Find(seed, "'", start);
    var link := Slice(seed, start, end);
    Extracted(DomainOfLink(link), link)
  }

  /** Every '/' of `pat` comes after a ':'. */
  predicate SlashAfterColon(pat: string) {
    forall d :: 0 <= d < |pat| && pat[d] == '/' ==> ':' in pat[..d]
  }

  lemma RemovedPatterns()
    ensures SlashAfterColon("https://") && SlashAfterColon("http://") && SlashAfterColon("www.")
  {
    assert "https://"[..6] == "https:" && "https://"[..7] == "https:/";
    assert "http://"[..5] == "http:" && "http://"[..6] == "http:/";
  }

  /** When `x` has no '/' and no ':' and `y` is empty or starts with '/', an
      occurrence of a pattern whose every '/' follows a ':' cannot straddle
      the boundary between them. */
  lemma NoStraddle(x: string, y: string, pat: string)
    requires '/' !in x && ':' !in x && (y == "" || y[0] == '/')
    requires SlashAfterColon(pat)
    ensures forall i :: 0 <= i < |x| < i + |pat| ==> !HasAt(x + y, pat, i)
  {
    var s := x + y;
    forall i | 0 <= i < |x| < i + |pat| ensures !HasAt(s, pat, i) {
      if i + |pat| <= |s| {
        var d := |x| - i;
        assert s[|x|] == y[0] == '/';
        assert s[i..i + |pat|][d] == s[|x|];
        if pat[d] == '/' {
          var e :| 0 <= e < d && pat[..d][e] == ':';
          assert s[i + e] == x[i + e] && x[i + e] in x;
          assert s[i..i + |pat|][e] == s[i + e];
        }
      }
    }
  }

  /** Removing such a pattern from `x + y` removes it from each side, and
      what is left of `y` still starts with '/' unless it is empty. */
  lemma RemoveAcross(x: string, y: string, pat: string)
    requires '/' !in x && ':' !in x && (y == "" || y[0] == '/')
    requires |pat| > 0 && pat[0] != '/' && SlashAfterColon(pat)
    ensures Replace(x + y, pat, "") == Replace(x, pat, "") + Replace(y, pat, "")
    ensures var t := Replace(y, pat, ""); t == "" || t[0] == '/'
  {
    NoStraddle(x, y, pat);
    ReplaceConcat(x, y, pat, "");
    if y != "" {
      ReplaceKeepsHead(y, pat, "");
    }
  }

  /** Removing the two scheme prefixes leaves a host without ':' in front
      of what remains of the path. */
  lemma RemoveSchemes(host: string, tail: string) returns (t: string)
    requires '/' !in host && ':' !in host && (tail == "" || tail[0] == '/')
    ensures Replace(Replace(host + tail, "https://", ""), "http://", "") == host + t
    ensures t == "" || t[0] == '/'
  {
    RemovedPatterns();
    NoCharOfPattern(host, "https://", 5);
    AbsentPattern(host, "https://", "");
    RemoveAcross(host, tail, "https://");
    var t1 := Replace(tail, "https://", "");
    NoCharOfPattern(host, "http://", 4);
    AbsentPattern(host, "http://", "");
    RemoveAcross(host, t1, "http://");
    t := Replace(t1, "http://", "");
  }

  /** A link "host/path" whose host has no ':' gives the host with every
      `www.` removed. */
  lemma DomainOfBareLink(host: string, tail: string)
    requires '/' !in host && ':' !in host && (tail == "" || tail[0] == '/')
    ensures DomainOfLink(host + tail) == Replace(host, "www.", "")
  {
    var t2 := RemoveSchemes(host, tail);
    RemovedPatterns();
    RemoveAcross(host, t2, "www.");
    var t3 := Replace(t2, "www.", "");
    var h := Replace(host, "www.", "");
    assert Replace(host + t2, "www.", "") == h + t3;
    ReplaceChars(host, "www.", "");
    SplitHeadBefore(h, '/', t3);
  }

  /** A link "https://host/path" whose host has no ':' gives the host with
      every `www.` removed. */
  lemma DomainOfHttpsLink(host: string, tail: string)
    requires '/' !in host && ':' !in host && (tail == "" || tail[0] == '/')
    ensures DomainOfLink("https://" + host + tail) == Replace(host, "www.", "")
  {
    var link := "https://" + host + tail;
    assert link[..8] == "https://" && link[8..] == host + tail;
    assert Replace(link, "https://", "") == Replace(host + tail, "https://", "");
    DomainOfBareLink(host, tail);
  }

  /** `find` returns the first occurrence at or after `start`. */
  lemma FindIs(s: string, sub: string, start: nat, i: nat)
    requires start <= i && HasAt(s, sub, i)
    requires forall k :: start <= k < i ==> !HasAt(s, sub, k)
    ensures Find(s, sub, start) == i
  {
  }

  /** A one-character pattern occurs exactly where that character is. */
  lemma QuoteAt(s: string, k: nat)
    ensures HasAt(s, "'", k) <==> k < |s| && s[k] == '\''
  {
    if k < |s| {
      assert s[k..k + 1][0] == s[k];
      if s[k] == '\'' {
        assert s[k..k + 1] == "'";
      }
    }
  }

  /** The first quote at or after `start` is at `q` when `s[start..q]` has
      none. */
  lemma FirstQuote(s: string, start: nat, q: nat)
    requires start <= q < |s| && s[q] == '\'' && '\'' !in s[start..q]
    ensures Find(s, "'", start) == q
  {
    forall k | start <= k < q ensures !HasAt(s, "'", k) {
      assert s[start..q][k - start] == s[k];
      QuoteAt(s, k);
    }
    QuoteAt(s, q);
    FindIs(s, "'", start, q);
  }

  /** With no quote from `start` on, `find` gives -1. */
  lemma NoQuoteFrom(s: string, start: nat)
    requires start <= |s| && '\'' !in s[start..]
    ensures Find(s, "'", start) == -1
  {
    forall k | start <= k ensures !HasAt(s, "'", k) {
      QuoteAt(s, k);
      if k < |s| {
        assert s[start..][k - start] == s[k];
      }
    }
  }

  /** The marker ends with a quote, so it cannot start where no quote
      follows five characters later. */
  lemma NoMarkerAt(s: string, k: nat)
    requires k + 5 < |s| ==> s[k + 5] != '\''
    ensures !HasAt(s, Marker, k)
  {
    if k + 6 <= |s| {
      assert s[k..k + 6][5] == s[k + 5];
    }
  }

  /** The first marker of `pre + "href='" + rest` is the one after `pre`
      when `pre` has no quote. */
  lemma MarkerAfter(pre: string, rest: string)
    requires '\'' !in pre
    ensures Find(pre + Marker + rest, Marker, 0) == |pre|
  {
    var s := pre + Marker + rest;
    assert s[|pre|..|pre| + 6] == Marker;
    forall k | 0 <= k < |pre| ensures !HasAt(s, Marker, k) {
      if k + 5 < |pre| {
        assert s[k + 5] == pre[k + 5];
      } else {
        assert s[k + 5] == Marker[k + 5 - |pre|];
      }
      NoMarkerAt(s, k);
    }
    FindIs(s, Marker, 0, |pre|);
  }

  /** The first quote of `pre + "href='" + link + "'" + post` is the one
      closing the marker when neither `pre` nor `link` has a quote, so the
      link comes back exactly. */
  lemma LinkOfQuotedHref(pre: string, link: string, post: string)
    requires '\'' !in pre && '\'' !in link
    ensures ExtractDomain(pre + Marker + link + "'" + post).link == link
  {
    var rest := link + "'" + post;
    var seed := pre + Marker + rest;
    assert pre + Marker + link + "'" + post == seed;
    MarkerAfter(pre, rest);
    var start := |pre| + 6;
    var q := start + |link|;
    assert seed[start..q] == link;
    assert seed[q] == '\'';
    FirstQuote(seed, start, q);
  }

  /** Without the marker `find` gives -1, so the link starts at index 5;
      without a quote from index 5 on (quotes before it are never searched)
      the end bound is -1 as well, so the link runs up to the last
      character, excluded. */
  lemma LinkWithoutMarker(seed: string)
    requires !Contains(seed, Marker)
    requires 5 <= |seed| ==> '\'' !in seed[5..]
    ensures ExtractDomain(seed).link == if |seed| > 6 then seed[5..|seed| - 1] else ""
  {
    assert Find(seed, Marker, 0) == -1;
    if 5 <= |seed| {
      NoQuoteFrom(seed, 5);
    } else {
      assert forall k :: 5 <= k ==> !HasAt(seed, "'", k);
    }
  }

  /** Without the marker but with a quote at index `q` of 5 or more, and
      none between index 5 and it, the link is the text from index 5 up to
      that quote, excluded. */
  lemma LinkWithoutMarkerToQuote(seed: string, q: nat)
    requires !Contains(seed, Marker)
    requires 5 <= q < |seed| && seed[q] == '\'' && '\'' !in seed[5..q]
    ensures ExtractDomain(seed).link == seed[5..q]
  {
    assert Find(seed, Marker, 0) == -1;
    FirstQuote(seed, 5, q);
  }

  /** With the marker but no closing quote, the link is the rest of the text
      without its final character. */
  lemma LinkWithoutClosingQuote(pre: string, rest: string)
    requires '\'' !in pre && '\'' !in rest
    ensures ExtractDomain(pre + Marker + rest).link == if |rest| == 0 then "" else rest[..|rest| - 1]
  {
    var seed := pre + Marker + rest;
    MarkerAfter(pre, rest);
    assert seed[|pre| + 6..] == rest;
    NoQuoteFrom(seed, |pre| + 6);
    if |rest| > 0 {
      assert seed[|pre| + 6..|seed| - 1] == rest[..|rest| - 1];
    }
  }
}

=== FILE: generate_partners.dfy ===
/** `scripts/generate_partners.py`: one filled partner block per
    (domain, content) pair, pairing the two lists position by position as
    `zip` does, each written to `<domain>_partner.html`. */
module GeneratePartners {
  import opened PyStr
  import opened Template

  const Suffix: string := "_partner.html"

  /** The file a domain's block is written to. */
  function OutputName(domain: string): (name: string)
    ensures |name| == |domain| + |Suffix|
    ensures name[..|domain|] == domain && name[|domain|..] == Suffix
  {
    domain + Suffix
  }

  /** A generated file: its name and its content. */
  datatype Block = Block(name: string, html: string)

  function Min(a: nat, b: nat): nat {
    if a <= b then a else b
  }

  /** The loop over `zip(domains, contents)`: as many blocks as the shorter
      list has entries, the `i`-th named after the `i`-th domain and filled
      with the `i`-th content; with no placeholder in the template every
      block is the template itself. */
  method Generate(template: string, domains: seq<string>, contents: seq<string>)
    returns (blocks: seq<Block>)
    ensures |blocks| == Min(|domains|, |contents|)
    ensures forall i :: 0 <= i < |blocks| ==>
      blocks[i].name == OutputName(domains[i]) && blocks[i].html == Fill(template, contents[i])
    ensures !Contains(template, Placeholder) ==>
      forall i :: 0 <= i < |blocks| ==> blocks[i].html == template
  {
    blocks := [];
    var n := Min(|domains|, |contents|);
    var i := 0;
    while i < n
      invariant 0 <= i <= n
      invariant |blocks| == i
      invariant forall j :: 0 <= j < i ==>
        blocks[j].name == OutputName(domains[j]) && blocks[j].html == Fill(template, contents[j])
    {
      blocks := blocks + [Block(OutputName(domains[i]), Fill(template, contents[i]))];
      i := i + 1;
    }
    if !Contains(template, Placeholder) {
      forall i | 0 <= i < |blocks| ensures blocks[i].html == template {
        FillWithoutPlaceholder(template, contents[i]);
      }
    }
  }
}

=== FILE: inject_to_html.dfy ===
/** `scripts/inject_to_html.py`: for each generated `<domain>_partner.html`,
    insert the block, followed by a newline, in front of every closing
    sequence `</div>\s*</div>\s*</section>` of `<domain>/partners/index.html`,
    as `re.sub` does with the pattern and the replacement `block\n\1`. */
module InjectToHtml {
  import opened Options
  import opened PyStr
  import opened GeneratePartners

  const CloseDiv: string := "</div>"
  const CloseSection: string := "</section>"

  /** A text the pattern matches: two closing `div`s and a closing `section`,
      with whitespace runs `a` and `b` between them. */
  function Closing(a: string, b: string): string {
    CloseDiv + a + CloseDiv + b + CloseSection
  }

  /** The first index at or after `i` that does not hold whitespace: where a
      greedy `\s*` starting at `i` stops. */
  function SkipSpace(s: string, i: nat): (j: nat)
    requires i <= |s|
    ensures i <= j <= |s| && AllSpace(s[i..j])
    ensures j < |s| ==> !IsSpace(s[j])
    decreases |s| - i
  {
    if i < |s| && IsSpace(s[i]) then
      var j := SkipSpace(s, i + 1);
      assert s[i..j] == [s[i]] + s[i + 1..j];
      j
    else i
  }

  /** The length of the match of the pattern at the very start of `s`, if
      any. Each `\s*` is followed by '<', which is not whitespace, so the
      greedy run is the only way the match can go on. */
  function MatchLen(s: string): (r: Option<nat>)
    ensures r.Some? ==> |Closing("", "")| <= r.value <= |s|
  {
    if HasAt(s, CloseDiv, 0) then
      var j := SkipSpace(s, |CloseDiv|);
      if HasAt(s, CloseDiv, j) then
        var k := SkipSpace(s, j + |CloseDiv|);
        if HasAt(s, CloseSection, k) then Some(k + |CloseSection|) else None
      else None
    else None
  }

  /** `re.sub(pattern, block + r'\n\1', s)`: scanning from the left, each
      match is replaced by the block, a newline and the matched text itself;
      the scan resumes after the match. */
  function Sub(s: string, block: string): string
    decreases |s|
  {
    if |s| == 0 then ""
    else match MatchLen(s)
      case Some(n) => block + "\n" + s[..n] + Sub(s[n..], block)
      case None => [s[0]] + Sub(s[1..], block)
  }

  /** The cuts the substitution makes: `s` split in front of every match it
      takes. The first piece is the text before the first match; every later
      piece starts with a match. */
  function Cut(s: string): (ps: seq<string>)
    ensures |ps| >= 1
    decreases |s|
  {
    if |s| == 0 then [""]
    else match MatchLen(s)
      case Some(n) =>
        var rest := Cut(s[n..]);
        ["", s[..n] + rest[0]] + rest[1..]
      case None =>
        var rest := Cut(s[1..]);
        [[s[0]] + rest[0]] + rest[1..]
  }

  lemma {:induction false} SkipSpaceExact(s: string, i: nat, a: string)
    requires i + |a| < |s| && s[i..i + |a|] == a && AllSpace(a) && !IsSpace(s[i + |a|])
    ensures SkipSpace(s, i) == i + |a|
    decreases |a|
  {
    if |a| > 0 {
      assert s[i] == a[0];
      assert s[i + 1..i + 1 + |a[1..]|] == a[1..];
      SkipSpaceExact(s, i + 1, a[1..]);
    }
  }

  /** A closing sequence at the start of `s` is matched in full, whatever
      follows it. */
  lemma MatchOfClosing(a: string, b: string, rest: string)
    requires AllSpace(a) && AllSpace(b)
    ensures MatchLen(Closing(a, b) + rest) == Some(|Closing(a, b)|)
  {
    var s := Closing(a, b) + rest;
    var j := 6 + |a|;
    var k := j + 6 + |b|;
    assert s[..6] == CloseDiv;
    assert s[6..j] == a;
    assert s[j] == '<';
    SkipSpaceExact(s, 6, a);
    assert s[j..j + 6] == CloseDiv;
    assert s[j + 6..k] == b;
    assert s[k] == '<';
    SkipSpaceExact(s, j + 6, b);
    assert s[k..k + 10] == CloseSection;
  }

  /** What the matcher accepts is a closing sequence. */
  lemma MatchIsClosing(s: string) returns (a: string, b: string)
    requires MatchLen(s).Some?
    ensures AllSpace(a) && AllSpace(b)
    ensures s[..MatchLen(s).value] == Closing(a, b)
  {
    var j := SkipSpace(s, 6);
    var k := SkipSpace(s, j + 6);
    a := s[6..j];
    b := s[j + 6..k];
    assert s[..k + 10] == s[..6] + a + s[j..j + 6] + b + s[k..k + 10];
  }

  /** A match depends only on the matched text. */
  lemma MatchKeeps(s: string, x: string)
    requires MatchLen(s).Some?
    ensures MatchLen(s[..MatchLen(s).value] + x) == MatchLen(s)
  {
    var a, b := MatchIsClosing(s);
    MatchOfClosing(a, b, x);
  }

  /** The substitution puts `block + "\n"` at every cut and nowhere else,
      and deleting those insertions gives the original text back: the
      matched closing tags are kept verbatim. */
  lemma {:induction false} SubIsJoinOfCut(s: string, block: string)
    ensures Sub(s, block) == Join(Cut(s), block + "\n")
    ensures Join(Cut(s), "") == s
    decreases |s|, 1
  {
    if |s| > 0 {
      match MatchLen(s)
      case Some(n) => SubIsJoinOfCutAtMatch(s, n, block);
      case None => SubIsJoinOfCutAtOther(s, block);
    }
  }

  lemma {:induction false} SubIsJoinOfCutAtMatch(s: string, n: nat, block: string)
    requires |s| > 0 && MatchLen(s) == Some(n)
    ensures Sub(s, block) == Join(Cut(s), block + "\n")
    ensures Join(Cut(s), "") == s
    decreases |s|, 0
  {
    var rest := Cut(s[n..]);
    SubIsJoinOfCut(s[n..], block);
    assert Cut(s) == ["", s[..n] + rest[0]] + rest[1..];
    assert Sub(s, block) == block + "\n" + s[..n] + Sub(s[n..], block);
    JoinAfterEmpty(s[..n], rest, block + "\n");
    JoinAfterEmpty(s[..n], rest, "");
    assert "" + s[..n] == s[..n];
    SplitAt(s, n);
  }

  lemma {:induction false} SubIsJoinOfCutAtOther(s: string, block: string)
    requires |s| > 0 && MatchLen(s).None?
    ensures Sub(s, block) == Join(Cut(s), block + "\n")
    ensures Join(Cut(s), "") == s
    decreases |s|, 0
  {
    var rest := Cut(s[1..]);
    SubIsJoinOfCut(s[1..], block);
    assert Cut(s) == [[s[0]] + rest[0]] + rest[1..];
    assert Sub(s, block) == [s[0]] + Sub(s[1..], block);
    JoinCons([s[0]], rest, block + "\n");
    JoinCons([s[0]], rest, "");
    ConsTail(s);
  }

  /** Joining pieces that start with an empty one, the second being `x`
      followed by the first of `rest`. */
  lemma JoinAfterEmpty(x: string, rest: seq<string>, sep: string)
    requires |rest| >= 1
    ensures Join(["", x + rest[0]] + rest[1..], sep) == sep + x + Join(rest, sep)
  {
    var ps := ["", x + rest[0]] + rest[1..];
    var qs := [x + rest[0]] + rest[1..];
    assert ps[0] == "" && ps[1..] == qs;
    assert Join(ps, sep) == "" + sep + Join(qs, sep);
    assert "" + sep == sep;
    JoinCons(x, rest, sep);
    Assoc(sep, x, Join(rest, sep));
  }

  predicate LaterPiecesMatch(ps: seq<string>) {
    forall k :: 1 <= k < |ps| ==> MatchLen(ps[k]).Some?
  }

  /** Every piece after the first starts with a match: the block is only
      ever inserted in front of a closing sequence. */
  lemma {:induction false} CutPiecesStartWithMatch(s: string)
    ensures LaterPiecesMatch(Cut(s))
    decreases |s|
  {
    if |s| > 0 {
      match MatchLen(s)
      case Some(n) =>
        var rest := Cut(s[n..]);
        CutPiecesStartWithMatch(s[n..]);
        MatchKeeps(s, rest[0]);
        LaterPiecesAfterMatch(s[..n], rest);
      case None =>
        var rest := Cut(s[1..]);
        CutPiecesStartWithMatch(s[1..]);
        LaterPiecesKeep([s[0]] + rest[0], rest);
    }
  }

  lemma LaterPiecesAfterMatch(x: string, rest: seq<string>)
    requires |rest| >= 1 && LaterPiecesMatch(rest) && MatchLen(x + rest[0]).Some?
    ensures LaterPiecesMatch(["", x + rest[0]] + rest[1..])
  {
    var ps := ["", x + rest[0]] + rest[1..];
    forall k | 1 <= k < |ps| ensures MatchLen(ps[k]).Some? {
      if k > 1 {
        assert ps[k] == rest[k - 1];
      }
    }
  }

  lemma LaterPiecesKeep(h: string, rest: seq<string>)
    requires |rest| >= 1 && LaterPiecesMatch(rest)
    ensures LaterPiecesMatch([h] + rest[1..])
  {
    var ps := [h] + rest[1..];
    forall k | 1 <= k < |ps| ensures MatchLen(ps[k]).Some? {
      assert ps[k] == rest[k];
    }
  }

  /** A closing sequence at the front is preceded by the block and a
      newline, and the scan resumes right after it. */
  lemma SubAtClosing(a: string, b: string, rest: string, block: string)
    requires AllSpace(a) && AllSpace(b)
    ensures Sub(Closing(a, b) + rest, block) == block + "\n" + Closing(a, b) + Sub(rest, block)
  {
    var m := Closing(a, b);
    var s := m + rest;
    MatchOfClosing(a, b, rest);
    assert s[..|m|] == m && s[|m|..] == rest;
  }

  lemma SubSkipsHead(s: string, block: string)
    requires |s| > 0 && MatchLen(s).None?
    ensures Sub(s, block) == [s[0]] + Sub(s[1..], block)
  {
  }

  /** No match starts in `s` before index `j`. */
  predicate NoMatchBefore(s: string, j: nat)
    requires j <= |s|
  {
    forall i :: 0 <= i < j ==> MatchLen(s[i..]).None?
  }

  lemma NoMatchShift(s: string, j: nat)
    requires 0 < j <= |s| && NoMatchBefore(s, j)
    ensures MatchLen(s).None? && NoMatchBefore(s[1..], j - 1)
  {
    assert s[0..] == s;
    forall i | 0 <= i < j - 1 ensures MatchLen(s[1..][i..]).None? {
      assert s[1..][i..] == s[i + 1..];
    }
  }

  /** Text in which no match starts is copied unchanged. */
  lemma {:induction false} SubSkips(s: string, j: nat, block: string)
    requires j <= |s| && NoMatchBefore(s, j)
    ensures Sub(s, block) == s[..j] + Sub(s[j..], block)
    decreases j
  {
    if j > 0 {
      var t := s[1..];
      NoMatchShift(s, j);
      SubSkips(t, j - 1, block);
      SubSkipsHead(s, block);
      assert t[j - 1..] == s[j..];
      ConsPrefix(s, j - 1);
      Assoc([s[0]], t[..j - 1], Sub(s[j..], block));
    }
  }

  /** The leftmost match is the one taken: when no match starts before
      index `j` and one of length `n` starts there, the result is the text
      before `j`, then the block, a newline and the matched text, and the
      scan goes on after the match. */
  lemma SubLeftmost(s: string, j: nat, block: string)
    requires j <= |s| && MatchLen(s[j..]).Some? && NoMatchBefore(s, j)
    ensures var n := MatchLen(s[j..]).value;
      Sub(s, block) == s[..j] + (block + "\n" + s[j..j + n] + Sub(s[j + n..], block))
  {
    var n := MatchLen(s[j..]).value;
    var u := s[j..];
    SubSkips(s, j, block);
    SubAtMatch(u, n, block);
    SliceOfSuffix(s, j, n);
    Rewrite(Sub(s, block), s[..j], Sub(u, block), block + "\n", u[..n], s[j..j + n],
            Sub(u[n..], block), Sub(s[j + n..], block));
  }

  /** Substituting equals in `p + (q + m + r)`. */
  lemma Rewrite(whole: string, p: string, u: string, q: string, m: string, m': string, r: string, r': string)
    requires whole == p + u && u == q + m + r && m == m' && r == r'
    ensures whole == p + (q + m' + r')
  {
  }

  lemma SubAtMatch(u: string, n: nat, block: string)
    requires |u| > 0 && MatchLen(u) == Some(n)
    ensures Sub(u, block) == block + "\n" + u[..n] + Sub(u[n..], block)
  {
  }

  lemma SliceOfSuffix(s: string, j: nat, n: nat)
    requires j + n <= |s|
    ensures s[j..][..n] == s[j..j + n] && s[j..][n..] == s[j + n..]
  {
  }

  /** The same, for a closing sequence `Closing(a, b)` placed after a text
      `g` in which no match starts. */
  lemma SubBeforeClosing(g: string, a: string, b: string, rest: string, block: string)
    requires AllSpace(a) && AllSpace(b)
    requires NoMatchBefore(g + Closing(a, b) + rest, |g|)
    ensures Sub(g + Closing(a, b) + rest, block) == g + block + "\n" + Closing(a, b) + Sub(rest, block)
  {
    var m := Closing(a, b);
    var s := g + m + rest;
    ThreeParts(g, m, rest);
    MatchOfClosing(a, b, rest);
    assert MatchLen(s[|g|..]) == Some(|m|);
    SubLeftmost(s, |g|, block);
    Regroup(Sub(s, block), s[..|g|], g, block, s[|g|..|g| + |m|], m, Sub(s[|g| + |m|..], block), Sub(rest, block));
  }

  lemma ThreeParts(g: string, m: string, rest: string)
    ensures var s := g + m + rest;
      && s[..|g|] == g && s[|g|..] == m + rest
      && s[|g|..|g| + |m|] == m && s[|g| + |m|..] == rest
  {
  }

  /** Substituting equals in `p + (block + "\n" + m + r)` and regrouping. */
  lemma Regroup(whole: string, p: string, p': string, block: string, m: string, m': string, r: string, r': string)
    requires whole == p + (block + "\n" + m + r) && p == p' && m == m' && r == r'
    ensures whole == p' + block + "\n" + m' + r'
  {
  }

  /** A match anywhere makes the substitution insert something. */
  lemma {:induction false} MatchGrows(s: string, i: nat, block: string)
    requires i <= |s| && MatchLen(s[i..]).Some?
    ensures |Sub(s, block)| > |s|
    decreases i
  {
    SubIsJoinOfCut(s, block);
    if MatchLen(s).Some? {
      var n := MatchLen(s).value;
      SubNeverShrinks(s[n..], block);
    } else {
      assert i > 0 by { assert s[0..] == s; }
      assert s[1..][i - 1..] == s[i..];
      MatchGrows(s[1..], i - 1, block);
    }
  }

  lemma {:induction false} SubNeverShrinks(s: string, block: string)
    ensures |Sub(s, block)| >= |s|
    decreases |s|
  {
    if |s| > 0 {
      match MatchLen(s)
      case Some(n) => SubNeverShrinks(s[n..], block);
      case None => SubNeverShrinks(s[1..], block);
    }
  }

  /** The page comes back unchanged exactly when the pattern matches nowhere
      in it. */
  lemma {:induction false} SubUnchanged(s: string, block: string)
    ensures Sub(s, block) == s <==> forall i :: 0 <= i <= |s| ==> MatchLen(s[i..]).None?
    decreases |s|
  {
    if forall i :: 0 <= i <= |s| ==> MatchLen(s[i..]).None? {
      if |s| > 0 {
        assert MatchLen(s[0..]).None? && s[0..] == s;
        forall i | 0 <= i <= |s[1..]| ensures MatchLen(s[1..][i..]).None? {
          assert s[1..][i..] == s[i + 1..];
        }
        SubUnchanged(s[1..], block);
        assert s == [s[0]] + s[1..];
      }
    } else {
      var i :| 0 <= i <= |s| && MatchLen(s[i..]).Some?;
      MatchGrows(s, i, block);
    }
  }

  /** `file.name.replace("_partner.html", "")`. */
  function DomainOfFile(name: string): string {
    Replace(name, Suffix, "")
  }

  /** The file a generated block for `domain` is written to is read back as
      that domain, provided the domain has no '_' in it. */
  lemma DomainOfOutputName(domain: string)
    requires '_' !in domain
    ensures DomainOfFile(OutputName(domain)) == domain
  {
    var s := domain + Suffix;
    forall i | 0 <= i < |domain| < i + |Suffix| ensures !HasAt(s, Suffix, i) {
      assert s[i..i + |Suffix|][0] == s[i] == domain[i];
    }
    ReplaceConcat(domain, Suffix, Suffix, "");
    NoCharOfPattern(domain, Suffix, 0);
    AbsentPattern(domain, Suffix, "");
    assert Suffix[..|Suffix|] == Suffix && Suffix[|Suffix|..] == "";
  }

  /** `partner_dir / domain / "partners" / "index.html"`. */
  function TargetPath(domain: string): seq<string> {
    [domain, "partners", "index.html"]
  }

  /** The site tree: file path (as its components) to text. */
  type Site = map<seq<string>, string>

  /** One iteration of the script's loop for the generated file `name`
      holding `block`: reading the target raises when it is missing;
      otherwise the target alone is rewritten with the block inserted. */
  function InjectFile(site: Site, name: string, block: string): (r: Option<Site>)
    requires '\\' !in block
    ensures var p := TargetPath(DomainOfFile(name));
      && (r.Some? <==> p in site)
      && (r.Some? ==>
            && r.value.Keys == site.Keys && r.value[p] == Sub(site[p], block)
            && forall q :: q in site && q != p ==> r.value[q] == site[q])
  {
    var p := TargetPath(DomainOfFile(name));
    if p in site then Some(site[p := Sub(site[p], block)]) else None
  }

  /** The block generated for `domain` lands in that domain's partner page. */
  lemma InjectGenerated(site: Site, domain: string, block: string)
    requires '_' !in domain && '\\' !in block
    requires TargetPath(domain) in site
    ensures var r := InjectFile(site, OutputName(domain), block);
      r.Some? && r.value == site[TargetPath(domain) := Sub(site[TargetPath(domain)], block)]
  {
    DomainOfOutputName(domain);
  }
}

=== FILE: options.dfy ===
/** Optional values, used wherever the original program tests for a missing
    element, attribute or remote file. */
module Options {

  datatype Option<+T> = None | Some(value: T) {

    /** The wrapped value, or `default` when there is none. */
    function GetOr(default: T): T {
      match this
      case Some(v) => v
      case None => default
    }
  }
}

=== FILE: partners.dfy ===
/** The partner entries of a page, as the two duplicate-removal scripts see
    them after parsing: the page's `div.client-wrapper` elements in document
    order, each with the `<a>` elements it contains. */
module Partners {
  import opened Options

  /** An `<a>` element and its `href` attribute, if it has one. */
  datatype Anchor = Anchor(href: Option<string>)

  /** One `div.client-wrapper`: its anchors in document order and the rest of
      its markup, which no script inspects. */
  datatype Wrapper = Wrapper(anchors: seq<Anchor>, markup: string)

  /** The wrappers of a page, in document order. */
  type Page = seq<Wrapper>

  /** `wrapper.find("a", href=True)`: the first anchor that has an `href`
      attribute, whatever its value. */
  function FirstLinkWithHref(anchors: seq<Anchor>): (r: Option<Anchor>)
    ensures r.Some? ==> r.value.href.Some?
    ensures r.Some? ==> exists i :: (0 <= i < |anchors| && anchors[i] == r.value &&
                                     forall j :: 0 <= j < i ==> anchors[j].href.None?)
    ensures r.None? <==> forall i :: 0 <= i < |anchors| ==> anchors[i].href.None?
  {
    if |anchors| == 0 then None
    else if anchors[0].href.Some? then Some(anchors[0])
    else FirstLinkWithHref(anchors[1..])
  }

  /** `w.find("a")`: the first anchor, with or without an `href`. */
  function FirstLink(anchors: seq<Anchor>): (r: Option<Anchor>) {
    if |anchors| == 0 then None else Some(anchors[0])
  }
}

=== FILE: py_str.dfy ===
/** The Python string operations the partner-page scripts are built from,
    defined the way CPython evaluates them: `str.strip()`, `str.lower()`,
    `sub in s`, `str.find(sub, start)`, `s[a:b]` with Python's bound
    normalisation, `str.replace(old, new)` (every non-overlapping occurrence,
    scanned left to right), `str.split(sep)` and `sep.join(parts)`. */
module PyStr {

  /** `str.isspace` on the ASCII range: space, \t \n \v \f \r and the
      separators \x1c .. \x1f. */
  predicate IsSpace(c: char) {
    c == ' ' || (9 <= c as int <= 13) || (28 <= c as int <= 31)
  }

  predicate AllSpace(s: string) {
    forall i :: 0 <= i < |s| ==> IsSpace(s[i])
  }

  /** No leading and no trailing whitespace. */
  predicate Trimmed(s: string) {
    s == "" || (!IsSpace(s[0]) && !IsSpace(s[|s| - 1]))
  }

  /** The length of the leading whitespace run. */
  function LeadingSpace(s: string): (n: nat)
    ensures n <= |s| && AllSpace(s[..n])
    ensures n < |s| ==> !IsSpace(s[n])
  {
    if |s| > 0 && IsSpace(s[0]) then
      var m := LeadingSpace(s[1..]);
      SpaceBefore(s, m + 1);
      assert m < |s| - 1 ==> s[1..][m] == s[m + 1];
      m + 1
    else 0
  }

  /** `s.lstrip()`: drops the leading whitespace run. */
  function LStrip(s: string): (r: string)
    ensures r == "" || !IsSpace(r[0])
    ensures |r| <= |s| && r == s[|s| - |r|..]
    ensures AllSpace(s[..|s| - |r|])
  {
    s[LeadingSpace(s)..]
  }

  /** `s.rstrip()`: drops the trailing whitespace run. */
  function RStrip(s: string): (r: string)
    ensures r == "" || !IsSpace(r[|r| - 1])
    ensures |r| <= |s| && r == s[..|r|]
    ensures AllSpace(s[|r|..])
  {
    if |s| > 0 && IsSpace(s[|s| - 1]) then
      var r := RStrip(s[..|s| - 1]);
      SpaceAfter(s, |r|);
      r
    else s
  }

  /** A whitespace character followed by whitespace. */
  lemma SpaceBefore(s: string, n: nat)
    requires 0 < n <= |s| && IsSpace(s[0]) && AllSpace(s[1..][..n - 1])
    ensures AllSpace(s[..n])
  {
    forall i | 0 <= i < n ensures IsSpace(s[..n][i]) {
      if i > 0 {
        assert s[..n][i] == s[1..][..n - 1][i - 1];
      }
    }
  }

  /** Whitespace followed by a whitespace character. */
  lemma SpaceAfter(s: string, m: nat)
    requires 0 < |s| && m <= |s| - 1 && IsSpace(s[|s| - 1]) && AllSpace(s[..|s| - 1][m..])
    ensures AllSpace(s[m..])
  {
    forall i | 0 <= i < |s| - m ensures IsSpace(s[m..][i]) {
      if i < |s| - 1 - m {
        assert s[m..][i] == s[..|s| - 1][m..][i];
      }
    }
  }

  /** `s.strip()`. */
  function Strip(s: string): (r: string)
    ensures Trimmed(r)
  {
    RStrip(LStrip(s))
  }

  lemma {:induction false} LStripSpaces(pre: string, x: string)
    requires AllSpace(pre)
    requires x == "" || !IsSpace(x[0])
    ensures LStrip(pre + x) == x
    decreases |pre|
  {
    if |pre| > 0 {
      assert (pre + x)[1..] == pre[1..] + x;
      LStripSpaces(pre[1..], x);
      assert LeadingSpace(pre + x) == LeadingSpace(pre[1..] + x) + 1;
    } else {
      assert pre + x == x;
    }
    assert (pre + x)[|pre|..] == x;
  }

  lemma {:induction false} RStripSpaces(x: string, post: string)
    requires AllSpace(post)
    requires x == "" || !IsSpace(x[|x| - 1])
    ensures RStrip(x + post) == x
    decreases |post|
  {
    if |post| > 0 {
      var p := post[..|post| - 1];
      assert (x + post)[..|x + post| - 1] == x + p;
      RStripSpaces(x, p);
    } else {
      assert x + post == x;
    }
  }

  /** Stripping removes exactly the surrounding whitespace: whatever
      whitespace surrounds a trimmed string, `strip()` gives that string back. */
  lemma StripExact(pre: string, mid: string, post: string)
    requires AllSpace(pre) && AllSpace(post) && Trimmed(mid)
    ensures Strip(pre + mid + post) == mid
  {
    if mid == "" {
      assert pre + mid + post == (pre + post) + "";
      LStripSpaces(pre + post, "");
    } else {
      assert pre + mid + post == pre + (mid + post);
      LStripSpaces(pre, mid + post);
      RStripSpaces(mid, post);
    }
  }

  /** Stripping twice is stripping once. */
  lemma StripIdempotent(s: string)
    ensures Strip(Strip(s)) == Strip(s)
  {
    var r := Strip(s);
    assert r == "" + r + "";
    StripExact("", r, "");
  }

  /** `str.lower()` on the ASCII letters. */
  function LowerChar(c: char): char {
    if 'A' <= c <= 'Z' then (c as int + 32) as char else c
  }

  function Lower(s: string): (r: string)
    ensures |r| == |s|
  {
    seq(|s|, i requires 0 <= i < |s| => LowerChar(s[i]))
  }

  /** `pat` occurs in `s` starting at index `i`. */
  predicate HasAt(s: string, pat: string, i: int) {
    0 <= i && i + |pat| <= |s| && s[i..i + |pat|] == pat
  }

  /** Python's `pat in s`. */
  predicate Contains(s: string, pat: string) {
    exists i | 0 <= i <= |s| - |pat| :: HasAt(s, pat, i)
  }

  /** `s.find(sub, start)`: the first index at or after `start` where `sub`
      occurs, or -1 when there is none. */
  function Find(s: string, sub: string, start: nat): (r: int)
    ensures r == -1 || (start <= r && HasAt(s, sub, r))
    ensures r != -1 ==> forall i :: start <= i < r ==> !HasAt(s, sub, i)
    ensures r == -1 <==> forall i :: start <= i ==> !HasAt(s, sub, i)
    decreases |s| - start
  {
    if start + |sub| > |s| then -1
    else if s[start..start + |sub|] == sub then start
    else Find(s, sub, start + 1)
  }

  /** Python's normalisation of a slice bound against a length `n`: a
      negative bound counts from the end, and the result is clamped. */
  function SliceBound(i: int, n: nat): (b: nat)
    ensures b <= n
    ensures 0 <= i <= n ==> b == i
    ensures i < 0 && i + n >= 0 ==> b == i + n
    ensures i > n ==> b == n
    ensures i + n < 0 ==> b == 0
  {
    if i < 0 then (if i + n < 0 then 0 else i + n)
    else if i > n then n
    else i
  }

  /** `s[lo:hi]`. */
  function Slice(s: string, lo: int, hi: int): string {
    var a := SliceBound(lo, |s|);
    var b := SliceBound(hi, |s|);
    if a < b then s[a..b] else ""
  }

  /** `s.replace(pat, rep)`. */
  function Replace(s: string, pat: string, rep: string): string
    requires |pat| > 0
    decreases |s|
  {
    if |s| < |pat| then s
    else if s[..|pat|] == pat then rep + Replace(s[|pat|..], pat, rep)
    else [s[0]] + Replace(s[1..], pat, rep)
  }

  /** `s.split(sep)`. */
  function Split(s: string, sep: string): (parts: seq<string>)
    requires |sep| > 0
    ensures |parts| >= 1
    decreases |s|
  {
    if |s| < |sep| then [s]
    else if s[..|sep|] == sep then [""] + Split(s[|sep|..], sep)
    else
      var t := Split(s[1..], sep);
      [[s[0]] + t[0]] + t[1..]
  }

  /** `sep.join(parts)`. */
  function Join(parts: seq<string>, sep: string): string {
    if |parts| == 0 then ""
    else if |parts| == 1 then parts[0]
    else parts[0] + sep + Join(parts[1..], sep)
  }

  function Last<T>(s: seq<T>): T
    requires |s| > 0
  {
    s[|s| - 1]
  }

  lemma JoinCons(c: string, t: seq<string>, sep: string)
    requires |t| >= 1
    ensures Join([c + t[0]] + t[1..], sep) == c + Join(t, sep)
  {
    var u := [c + t[0]] + t[1..];
    if |t| > 1 {
      assert u[1..] == t[1..];
    }
  }

  /** Splitting on `sep` and joining with `sep` gives the string back. */
  lemma {:induction false} JoinSplit(s: string, sep: string)
    requires |sep| > 0
    ensures Join(Split(s, sep), sep) == s
    decreases |s|
  {
    if |s| < |sep| {
    } else if s[..|sep|] == sep {
      var u := s[|sep|..];
      var t := Split(u, sep);
      JoinSplit(u, sep);
      assert ([""] + t)[1..] == t;
      assert Join([""] + t, sep) == "" + sep + Join(t, sep);
      assert s == sep + u;
    } else {
      var u := s[1..];
      var t := Split(u, sep);
      JoinSplit(u, sep);
      JoinCons([s[0]], t, sep);
      assert s == [s[0]] + u;
    }
  }

  /** `s.replace(pat, rep) == rep.join(s.split(pat))`: every piece between two
      occurrences is kept and every occurrence becomes `rep`. */
  lemma {:induction false} ReplaceIsJoinOfSplit(s: string, pat: string, rep: string)
    requires |pat| > 0
    ensures Replace(s, pat, rep) == Join(Split(s, pat), rep)
    decreases |s|
  {
    if |s| < |pat| {
    } else if s[..|pat|] == pat {
      var t := Split(s[|pat|..], pat);
      ReplaceIsJoinOfSplit(s[|pat|..], pat, rep);
      assert ([""] + t)[1..] == t;
    } else {
      var t := Split(s[1..], pat);
      ReplaceIsJoinOfSplit(s[1..], pat, rep);
      JoinCons([s[0]], t, rep);
    }
  }

  /** The first piece of a split is a prefix of the string. */
  lemma {:induction false} SplitHeadIsPrefix(s: string, sep: string)
    requires |sep| > 0
    ensures |Split(s, sep)[0]| <= |s|
    ensures Split(s, sep)[0] == s[..|Split(s, sep)[0]|]
    decreases |s|
  {
    if |s| < |sep| {
    } else if s[..|sep|] == sep {
    } else {
      SplitHeadIsPrefix(s[1..], sep);
      var h := Split(s[1..], sep)[0];
      assert Split(s, sep)[0] == [s[0]] + h;
      ConsPrefix(s, |h|);
    }
  }

  lemma ShortHasNone(s: string, pat: string)
    requires |s| < |pat|
    ensures !Contains(s, pat)
  {
  }

  /** An occurrence in a string after its first character is an occurrence
      in the tail, one index earlier. */
  lemma ShiftHasAt(c: char, t: string, pat: string, i: int)
    requires i >= 1
    ensures HasAt([c] + t, pat, i) <==> HasAt(t, pat, i - 1)
  {
    if i + |pat| <= |t| + 1 {
      assert ([c] + t)[i..i + |pat|] == t[i - 1..i - 1 + |pat|];
    }
  }

  /** No piece of a split contains the separator. */
  lemma {:induction false} SplitPiecesFree(s: string, sep: string)
    requires |sep| > 0
    ensures forall k :: 0 <= k < |Split(s, sep)| ==> !Contains(Split(s, sep)[k], sep)
    decreases |s|
  {
    if |s| < |sep| {
      ShortHasNone(s, sep);
    } else if s[..|sep|] == sep {
      var t := Split(s[|sep|..], sep);
      SplitPiecesFree(s[|sep|..], sep);
      ShortHasNone("", sep);
      PiecesCons("", t, sep);
    } else {
      var t := Split(s[1..], sep);
      SplitPiecesFree(s[1..], sep);
      HeadPieceFree(s, sep);
      PiecesCons([s[0]] + t[0], t[1..], sep);
    }
  }

  /** Putting a piece without the separator in front of pieces without it. */
  lemma PiecesCons(h: string, ps: seq<string>, sep: string)
    requires !Contains(h, sep)
    requires forall k :: 0 <= k < |ps| ==> !Contains(ps[k], sep)
    ensures forall k :: 0 <= k < |[h] + ps| ==> !Contains(([h] + ps)[k], sep)
  {
    assert forall k :: 1 <= k < |[h] + ps| ==> ([h] + ps)[k] == ps[k - 1];
  }

  /** When `s` does not start with `sep`, its first character followed by
      the first piece of the tail's split holds no `sep` either. */
  lemma HeadPieceFree(s: string, sep: string)
    requires |sep| > 0 && |s| >= |sep| && s[..|sep|] != sep
    requires !Contains(Split(s[1..], sep)[0], sep)
    ensures !Contains([s[0]] + Split(s[1..], sep)[0], sep)
  {
    var t0 := Split(s[1..], sep)[0];
    SplitHeadIsPrefix(s[1..], sep);
    var h := [s[0]] + t0;
    ConsPrefix(s, |t0|);
    forall i | 0 <= i <= |h| - |sep| ensures !HasAt(h, sep, i) {
      if i == 0 {
        SliceOfPrefix(s, |h|, 0, |sep|);
      } else {
        ShiftHasAt(s[0], t0, sep, i);
      }
    }
  }

  lemma ConsPrefix(s: string, n: nat)
    requires n < |s|
    ensures s[..n + 1] == [s[0]] + s[1..][..n]
  {
  }

  lemma SliceOfTail(s: string, a: nat, b: nat)
    requires a <= b < |s|
    ensures s[1..][a..b] == s[a + 1..b + 1]
  {
  }

  lemma SliceOfPrefix(s: string, n: nat, a: nat, b: nat)
    requires a <= b <= n <= |s|
    ensures s[..n][a..b] == s[a..b]
  {
  }

  /** The first piece of a split is the text before the leftmost
      occurrence of the separator. */
  lemma {:induction false} SplitHeadAt(s: string, sep: string, i: nat)
    requires |sep| > 0 && HasAt(s, sep, i)
    requires forall j :: 0 <= j < i ==> !HasAt(s, sep, j)
    ensures Split(s, sep)[0] == s[..i]
    decreases i
  {
    if i > 0 {
      assert !HasAt(s, sep, 0);
      assert s[..|sep|] != sep;
      SliceOfTail(s, i - 1, i - 1 + |sep|);
      forall j | 0 <= j < i - 1 ensures !HasAt(s[1..], sep, j) {
        if j + |sep| <= |s| - 1 {
          SliceOfTail(s, j, j + |sep|);
          assert !HasAt(s, sep, j + 1);
        }
      }
      SplitHeadAt(s[1..], sep, i - 1);
      ConsPrefix(s, i - 1);
    }
  }

  /** `s.split(sep)[0]` is `s[:s.find(sep)]` when the separator occurs. */
  lemma SplitHeadIsFind(s: string, sep: string)
    requires |sep| > 0
    ensures Find(s, sep, 0) >= 0 ==> Split(s, sep)[0] == s[..Find(s, sep, 0)]
  {
    var i := Find(s, sep, 0);
    if i >= 0 {
      SplitHeadAt(s, sep, i);
    }
  }

  /** A string without the separator splits into itself alone, and
      replacing an absent pattern changes nothing. */
  lemma {:induction false} AbsentPattern(s: string, pat: string, rep: string)
    requires |pat| > 0 && !Contains(s, pat)
    ensures Split(s, pat) == [s]
    ensures Replace(s, pat, rep) == s
    decreases |s|
  {
    if |s| >= |pat| {
      assert HasAt(s, pat, 0) == (s[..|pat|] == pat);
      if Contains(s[1..], pat) {
        var i :| 0 <= i <= |s[1..]| - |pat| && HasAt(s[1..], pat, i);
        assert s[i + 1..i + 1 + |pat|] == s[1..][i..i + |pat|];
        assert HasAt(s, pat, i + 1);
      }
      AbsentPattern(s[1..], pat, rep);
      assert s == [s[0]] + s[1..];
    }
  }

  /** Python's `pat in s` on a pattern of one character is membership. */
  lemma ContainsChar(s: string, c: char)
    ensures Contains(s, [c]) <==> c in s
  {
    if c in s {
      var i :| 0 <= i < |s| && s[i] == c;
      assert HasAt(s, [c], i);
    }
    if Contains(s, [c]) {
      var i :| 0 <= i <= |s| - 1 && HasAt(s, [c], i);
      assert s[i] == s[i..i + 1][0];
    }
  }

  /** Every character of `s.replace(pat, rep)` comes from `s` or from `rep`. */
  lemma {:induction false} ReplaceChars(s: string, pat: string, rep: string)
    requires |pat| > 0
    ensures forall c :: c in Replace(s, pat, rep) ==> c in s || c in rep
    decreases |s|
  {
    if |s| < |pat| {
    } else if s[..|pat|] == pat {
      ReplaceChars(s[|pat|..], pat, rep);
    } else {
      ReplaceChars(s[1..], pat, rep);
    }
  }

  /** Each replaced occurrence changes the length by `|rep| - |pat|`; the
      number of occurrences is one less than the number of split pieces. */
  lemma {:induction false} ReplaceLength(s: string, pat: string, rep: string)
    requires |pat| > 0
    ensures |Replace(s, pat, rep)| == |s| + (|Split(s, pat)| - 1) * (|rep| - |pat|)
    decreases |s|
  {
    var d := |rep| - |pat|;
    if |s| < |pat| {
    } else if s[..|pat|] == pat {
      var u := s[|pat|..];
      ReplaceLength(u, pat, rep);
      var k := |Split(u, pat)|;
      var m := (k - 1) * d;
      assert |Replace(u, pat, rep)| == |u| + m;
      assert |Replace(s, pat, rep)| == |rep| + |Replace(u, pat, rep)|;
      assert |Split(s, pat)| - 1 == k;
      MulStep(k, d);
      assert (|Split(s, pat)| - 1) * d == m + d;
    } else {
      var u := s[1..];
      ReplaceLength(u, pat, rep);
      assert |Replace(s, pat, rep)| == 1 + |Replace(u, pat, rep)|;
      assert |Split(s, pat)| == |Split(u, pat)|;
    }
  }

  lemma MulStep(k: int, d: int)
    ensures (k - 1) * d + d == k * d
  {
  }

  /** The first piece of `s.split(c)` is the text before the first `c`. */
  lemma {:induction false} SplitAtFirstChar(x: string, c: char, y: string)
    requires c !in x
    ensures Split(x + [c] + y, [c])[0] == x
    decreases |x|
  {
    var s := x + [c] + y;
    if |x| > 0 {
      assert s[0] == x[0] && x[0] != c;
      assert s[..1] != [c] by { assert s[..1][0] == s[0]; }
      assert s[1..] == x[1..] + [c] + y;
      assert c !in x[1..];
      SplitAtFirstChar(x[1..], c, y);
      assert x == [x[0]] + x[1..];
    } else {
      assert s[..1] == [c];
    }
  }

  /** The first piece of a split of a string without the separator is the
      string itself. */
  lemma SplitWithoutChar(x: string, c: char)
    requires c !in x
    ensures Split(x, [c])[0] == x
  {
    ContainsChar(x, c);
    AbsentPattern(x, [c], "");
  }

  /** No occurrence of `pat` in `x + y` starts inside `x` and ends inside `y`. */
  predicate NoneAcross(x: string, y: string, pat: string) {
    forall i :: 0 <= i < |x| < i + |pat| ==> !HasAt(x + y, pat, i)
  }

  /** Dropping a prefix of `x` keeps the boundary free of occurrences. */
  lemma NoneAcrossDrop(x: string, y: string, pat: string, k: nat)
    requires 0 < k <= |x| && NoneAcross(x, y, pat)
    ensures NoneAcross(x[k..], y, pat)
  {
    var s := x + y;
    assert x[k..] + y == s[k..];
    forall i | 0 <= i < |x| - k < i + |pat| ensures !HasAt(s[k..], pat, i) {
      assert !HasAt(s, pat, i + k);
      if i + |pat| <= |s| - k {
        assert s[k..][i..i + |pat|] == s[i + k..i + k + |pat|];
      }
    }
  }

  lemma SplitAt(s: string, n: nat)
    requires n <= |s|
    ensures s[..n] + s[n..] == s
  {
  }

  lemma ConsTail(s: string)
    requires |s| > 0
    ensures [s[0]] + s[1..] == s
  {
  }

  lemma Assoc(a: string, b: string, c: string)
    ensures a + (b + c) == (a + b) + c
  {
  }

  /** When no occurrence of `pat` straddles the end of `x`, replacing in
      `x + y` replaces in each half separately. */
  lemma {:induction false} ReplaceConcat(x: string, y: string, pat: string, rep: string)
    requires |pat| > 0 && NoneAcross(x, y, pat)
    ensures Replace(x + y, pat, rep) == Replace(x, pat, rep) + Replace(y, pat, rep)
    decreases |x|, 1
  {
    var s := x + y;
    if |x| == 0 {
      assert s == y;
    } else if |s| < |pat| {
      assert Replace(y, pat, rep) == y;
      assert Replace(x, pat, rep) == x;
    } else if s[..|pat|] == pat {
      ReplaceConcatAtMatch(x, y, pat, rep);
    } else {
      ReplaceConcatAtOther(x, y, pat, rep);
    }
  }

  /** `ReplaceConcat` when `x + y` starts with `pat`: the occurrence lies
      inside `x`. */
  lemma {:induction false} ReplaceConcatAtMatch(x: string, y: string, pat: string, rep: string)
    requires |pat| > 0 && NoneAcross(x, y, pat) && |x| > 0
    requires |x + y| >= |pat| && (x + y)[..|pat|] == pat
    ensures Replace(x + y, pat, rep) == Replace(x, pat, rep) + Replace(y, pat, rep)
    decreases |x|, 0
  {
    var s := x + y;
    assert HasAt(s, pat, 0);
    assert |pat| <= |x|;
    assert x[..|pat|] == pat;
    var u := x[|pat|..];
    assert s[|pat|..] == u + y;
    NoneAcrossDrop(x, y, pat, |pat|);
    ReplaceConcat(u, y, pat, rep);
    var ru, ry := Replace(u, pat, rep), Replace(y, pat, rep);
    assert Replace(s, pat, rep) == rep + (ru + ry);
    assert Replace(x, pat, rep) == rep + ru;
    Assoc(rep, ru, ry);
  }

  /** `ReplaceConcat` when `x + y` does not start with `pat`: its first
      character is kept. */
  lemma {:induction false} ReplaceConcatAtOther(x: string, y: string, pat: string, rep: string)
    requires |pat| > 0 && NoneAcross(x, y, pat) && |x| > 0
    requires |x + y| >= |pat| && (x + y)[..|pat|] != pat
    ensures Replace(x + y, pat, rep) == Replace(x, pat, rep) + Replace(y, pat, rep)
    decreases |x|, 0
  {
    var s := x + y;
    var u := x[1..];
    assert s[1..] == u + y;
    NoneAcrossDrop(x, y, pat, 1);
    ReplaceConcat(u, y, pat, rep);
    var ru, ry := Replace(u, pat, rep), Replace(y, pat, rep);
    assert Replace(s, pat, rep) == [x[0]] + (ru + ry);
    if |x| >= |pat| {
      assert x[..|pat|] == s[..|pat|];
    } else {
      assert ru == u;
      assert x == [x[0]] + u;
    }
    assert Replace(x, pat, rep) == [x[0]] + ru;
    Assoc([x[0]], ru, ry);
  }

  /** Replacing a pattern that does not start with `s[0]` keeps `s[0]` in front. */
  lemma ReplaceKeepsHead(s: string, pat: string, rep: string)
    requires |pat| > 0 && |s| > 0 && s[0] != pat[0]
    ensures |Replace(s, pat, rep)| > 0 && Replace(s, pat, rep)[0] == s[0]
  {
    if |s| >= |pat| {
      assert s[..|pat|][0] != pat[0];
    }
  }

  /** When `x` cannot hold the start of `pat`, the first occurrence in
      `x + pat + y` is the one right after `x`. */
  lemma {:induction false} SplitAfterFirst(x: string, pat: string, y: string)
    requires |pat| > 0 && pat[0] !in x
    ensures Split(x + pat + y, pat) == [x] + Split(y, pat)
    decreases |x|
  {
    var s := x + pat + y;
    if |x| == 0 {
      assert s == pat + y;
      assert s[..|pat|] == pat;
      assert s[|pat|..] == y;
    } else {
      assert s[0] == x[0];
      assert s[..|pat|] != pat by { assert s[..|pat|][0] == s[0]; }
      assert s[1..] == x[1..] + pat + y;
      assert pat[0] !in x[1..];
      SplitAfterFirst(x[1..], pat, y);
      assert x == [x[0]] + x[1..];
    }
  }

  /** A string lacking some character of `pat` does not contain `pat`. */
  lemma NoCharOfPattern(s: string, pat: string, k: nat)
    requires k < |pat| && pat[k] !in s
    ensures !Contains(s, pat)
  {
    forall i | 0 <= i <= |s| - |pat| ensures !HasAt(s, pat, i) {
      assert s[i..i + |pat|][k] == s[i + k];
    }
  }

  /** The first piece of `s.split(c)` for `s == x + tail`, where `x` has no
      `c` and `tail` is empty or starts with `c`, is `x`. */
  lemma SplitHeadBefore(x: string, c: char, tail: string)
    requires c !in x && (tail == "" || tail[0] == c)
    ensures Split(x + tail, [c])[0] == x
  {
    if tail == "" {
      assert x + tail == x;
      SplitWithoutChar(x, c);
    } else {
      assert x + tail == x + [c] + tail[1..];
      SplitAtFirstChar(x, c, tail[1..]);
    }
  }
}

=== FILE: remote.dfy ===
/** The remote side of a file-transfer session, reduced to what the update
    scripts do with it: a directory mapping file names to page content, and
    the three operations they call on it (rename, retrieve, store). Whether
    an operation fails is not decided here: the caller passes a `Faults`
    value saying which operations the transport will refuse, so every
    combination of failures can be stated about. */
module Remote {
  import opened Options

  /** The remote directory: file name to (already decoded) content. */
  type Store<D> = map<string, D>

  /** How the server answers a rename besides the normal cases: a permanent
      (5xx) refusal, raised by ftplib as `error_perm`, or any other error. */
  datatype RenameFault = NoRenameFault | PermFault | OtherFault

  /** Which operations fail: the connection or login, the rename, retrieval
      of the listed names and storing under the listed names. */
  datatype Faults = Faults(connect: bool, rename: RenameFault, retrieve: set<string>, store: set<string>)

  const NoFaults: Faults := Faults(false, NoRenameFault, {}, {})

  datatype RenameOutcome<D> = Renamed(after: Store<D>) | PermError | OtherError

  /** `RNFR from` / `RNTO to`. Renaming a file that does not exist is a
      permanent (550) error; a successful rename replaces any file already
      named `to`. */
  function Rename<D>(st: Store<D>, from: string, to: string, f: Faults): (r: RenameOutcome<D>)
    requires from != to
    ensures r.Renamed? <==> from in st && f.rename.NoRenameFault?
    ensures r.Renamed? ==>
      && from !in r.after && to in r.after && r.after[to] == st[from]
      && forall n :: n != from && n != to ==>
           (n in r.after <==> n in st) && (n in st ==> r.after[n] == st[n])
  {
    if f.rename.OtherFault? then OtherError
    else if f.rename.PermFault? || from !in st then PermError
    else
      var after := (st - {from})[to := st[from]];
      assert forall n :: n != from && n != to ==> (n in after <==> n in st);
      Renamed(after)
  }

  /** `RETR name`: the content, unless the file is missing or the transfer fails. */
  function Retrieve<D>(st: Store<D>, name: string, f: Faults): (r: Option<D>)
    ensures r.Some? <==> name in st && name !in f.retrieve
    ensures r.Some? ==> r.value == st[name]
  {
    if name in st && name !in f.retrieve then Some(st[name]) else None
  }

  /** `STOR name`: the directory with `name` holding `d`, unless the transfer
      fails, in which case nothing changes. */
  function Put<D>(st: Store<D>, name: string, d: D, f: Faults): (r: Option<Store<D>>)
    ensures r.Some? <==> name !in f.store
    ensures r.Some? ==> r.value == st[name := d]
  {
    if name in f.store then None else Some(st[name := d])
  }
}

=== FILE: remove_duplicate_block.dfy ===
/** `duplication/remove_duplicate_block.py`: fetch `index.html`, store a
    timestamped copy under `rollback/`, keep only the first wrapper for each
    href (compared exactly as written), and upload the result. Every remote
    operation is unguarded, so the first failure ends the run. */
module RemoveDuplicateBlock {
  import opened Options
  import opened Dedup
  import opened Remote
  import opened Partners
  import opened Timestamp

  const Index: string := "index.html"

  /** `rollback/rollback_<timestamp>.html`. */
  function BackupName(t: Instant): string
    requires Valid(t)
  {
    Stamped("rollback/rollback_", t)
  }

  /** The key of a wrapper: the `href` of its first `<a>`, verbatim, or none
      when there is no `<a>`, the first one has no `href`, or it is empty. */
  function RawKey(w: Wrapper): string {
    match FirstLink(w.anchors)
    case None => ""
    case Some(a) => a.href.GetOr("")
  }

  /** The dedup loop: walks the wrappers in document order, removing a
      wrapper whose href was already seen. The result is the first-wins
      selection on exact hrefs, its hrefs are pairwise distinct, `removed`
      counts the dropped wrappers, and nothing is removed exactly when no
      href repeats. */
  method RemoveDuplicates(page: Page) returns (out: Page, removed: nat)
    ensures out == FirstWins(page, RawKey)
    ensures DistinctKeys(out, RawKey)
    ensures removed == |page| - |out|
    ensures removed == 0 <==> DistinctKeys(page, RawKey)
  {
    var seen: set<string> := {};
    out := [];
    removed := 0;
    var i := 0;
    while i < |page|
      invariant 0 <= i <= |page|
      invariant seen == Keys(page[..i], RawKey)
      invariant out == FirstWins(page[..i], RawKey)
      invariant removed + |out| == i
    {
      assert page[..i + 1][..i] == page[..i];
      KeysConcat(page[..i], [page[i]], RawKey);
      assert page[..i + 1] == page[..i] + [page[i]];
      var href := RawKey(page[i]);
      if href != "" {
        if href in seen {
          removed := removed + 1;
        } else {
          out := out + [page[i]];
          seen := seen + {href};
        }
      } else {
        out := out + [page[i]];
      }
      i := i + 1;
    }
    assert page[..|page|] == page;
    FirstWinsDistinct(page, RawKey);
    FirstWinsShrinks(page, RawKey);
    FirstWinsFixpoint(page, RawKey);
  }

  /** Where a run stopped: an unguarded operation that raised, or the end. */
  datatype Status = ConnectError | RetrieveError | BackupError | UploadError | Completed

  datatype Run = Run(status: Status, store: Store<Page>)

  /** The whole script for one site, backing up to `backup`. The run
      completes exactly when no operation fails, and then the backup holds
      the page as fetched and `index.html` its first-wins deduplication.
      Only those two names can change; `index.html` never appears or
      disappears; it is only ever changed once its backup is stored, and a
      run that stops early leaves it as it was. */
  function CleanSiteAs(st: Store<Page>, f: Faults, backup: string): (r: Run)
    requires backup != Index
    ensures r.status.Completed? <==>
      (!f.connect && Index in st && Index !in f.retrieve && backup !in f.store && Index !in f.store)
    ensures r.status.Completed? ==>
      r.store == st[backup := st[Index]][Index := FirstWins(st[Index], RawKey)]
    ensures forall n :: n != Index && n != backup ==>
      (n in st ==> n in r.store && r.store[n] == st[n]) && (n in r.store ==> n in st)
    ensures Index in st <==> Index in r.store
    ensures Index in st && Index in r.store && r.store[Index] != st[Index] ==>
      backup in r.store && r.store[backup] == st[Index]
    ensures !r.status.Completed? && Index in st ==> Index in r.store && r.store[Index] == st[Index]
  {
    if f.connect then Run(ConnectError, st)
    else match Retrieve(st, Index, f)
      case None => Run(RetrieveError, st)
      case Some(page) =>
        match Put(st, backup, page, f)
        case None => Run(BackupError, st)
        case Some(backed) =>
          match Put(backed, Index, FirstWins(page, RawKey), f)
          case None => Run(UploadError, backed)
          case Some(done) => Run(Completed, done)
  }

  /** The script run at instant `t`, backing up to `BackupName(t)`. */
  function CleanSite(st: Store<Page>, f: Faults, t: Instant): Run
    requires Valid(t)
  {
    CleanSiteAs(st, f, BackupName(t))
  }
}

=== FILE: sftp_modify_inject.dfy ===
/** `scripts/sftp_modify_inject.py`: move the live `index.html` aside to a
    timestamped backup, take a base page (the backup, else the live page,
    else a scaffold), append the filled partner snippet to the partner row
    (else to `<body>`, else to the document) and upload the result as
    `index.html`. */
module SftpModifyInject {
  import opened Options
  import opened Tree
  import opened Remote
  import opened Timestamp
  import opened Template

  const Index: string := "index.html"
  const DefaultText: string := "LawEssayHelp Default Text"

  /** `index_old_<timestamp>.html`. */
  function BackupName(t: Instant): string
    requires Valid(t)
  {
    Stamped("index_old_", t)
  }

  /** Where the snippet goes: the first partner row in document order, else
      the first `<body>`, else the document itself. */
  function InjectionPoint(doc: Document): (p: seq<nat>)
    ensures IsElementAt(doc, p)
  {
    match Find(doc, Row)
    case Some(p) => FindFromSome(doc, 0, Row); p
    case None =>
      match Find(doc, Body)
      case Some(p) => FindFromSome(doc, 0, Body); p
      case None => []
  }

  /** A descendant of `doc` matching `t` exists. */
  ghost predicate Has(doc: Document, t: Target) {
    exists q :: |q| >= 1 && NodeAt(doc, q).Some? && Matches(NodeAt(doc, q).value, t)
  }

  /** `p` addresses the first descendant of `doc` matching `t`. */
  ghost predicate FirstMatch(doc: Document, p: seq<nat>, t: Target) {
    && |p| >= 1 && NodeAt(doc, p).Some? && Matches(NodeAt(doc, p).value, t)
    && forall q :: |q| >= 1 && Before(q, p) && NodeAt(doc, q).Some? ==> !Matches(NodeAt(doc, q).value, t)
  }

  /** The fallback chain: the first row if there is a row; otherwise the
      first body if there is a body; otherwise the root. */
  lemma InjectionPointChoice(doc: Document)
    ensures Has(doc, Row) ==> FirstMatch(doc, InjectionPoint(doc), Row)
    ensures !Has(doc, Row) && Has(doc, Body) ==> FirstMatch(doc, InjectionPoint(doc), Body)
    ensures !Has(doc, Row) && !Has(doc, Body) ==> InjectionPoint(doc) == []
  {
    if Find(doc, Row).Some? {
      FindFromSome(doc, 0, Row);
    } else {
      FindFromNone(doc, 0, Row);
      if Find(doc, Body).Some? {
        FindFromSome(doc, 0, Body);
      } else {
        FindFromNone(doc, 0, Body);
      }
    }
  }

  /** `inject_into_html`: the snippet's nodes become the last children of
      the injection point; that element keeps its tag and class, and dropping
      the added children gives back the original document, so every node
      that was there stays in place and in order. Never fails. */
  function InjectIntoHtml(doc: Document, frag: seq<Node>): (r: Document)
    ensures var p := InjectionPoint(doc);
      && IsElementAt(r, p)
      && (var e := NodeAt(doc, p).value;
          NodeAt(r, p) == Some(Element(e.tag, e.cls, e.kids + frag)))
      && TrimAt(r, p, |frag|) == doc
  {
    AppendAt(doc, InjectionPoint(doc), frag)
  }

  /** The page used when no base file can be fetched:
      html > body > section > div.row, the row empty. */
  const Scaffold: Document :=
    Element("[document]", "", [
      Element("html", "", [
        Element("body", "", [
          Element("section", "", [
            Element("div", RowClass, [])])])])])

  /** Injected into the scaffold, the snippet fills its row. */
  lemma ScaffoldInjection(frag: seq<Node>)
    ensures NodeAt(InjectIntoHtml(Scaffold, frag), [0, 0, 0, 0]) == Some(Element("div", RowClass, frag))
  {
    var row := Element("div", RowClass, []);
    var section := Element("section", "", [row]);
    var body := Element("body", "", [section]);
    var html := Element("html", "", [body]);
    assert Matches(row, Row) && !Matches(section, Row) && !Matches(body, Row) && !Matches(html, Row);
    assert FindFrom(section, 0, Row) == Some([0]);
    assert [0] + [0] == [0, 0];
    assert FindFrom(body, 0, Row) == Some([0, 0]);
    assert [0] + [0, 0] == [0, 0, 0];
    assert FindFrom(html, 0, Row) == Some([0, 0, 0]);
    assert [0] + [0, 0, 0] == [0, 0, 0, 0];
    assert FindFrom(Scaffold, 0, Row) == Some([0, 0, 0, 0]);
    assert NodeAt(Scaffold, [0, 0, 0, 0]) == Some(row);
  }

  /** The text put into the template: the first content listed for the
      domain when the contents file exists, lists the domain and the list is
      not empty; the default text otherwise. */
  function SnippetText(contents: Option<map<string, seq<string>>>, domain: string): (text: string)
    ensures contents.Some? && domain in contents.value && |contents.value[domain]| > 0 ==>
      text == contents.value[domain][0]
    ensures !(contents.Some? && domain in contents.value && |contents.value[domain]| > 0) ==>
      text == DefaultText
  {
    match contents
    case Some(c) => if domain in c && |c[domain]| > 0 then c[domain][0] else DefaultText
    case None => DefaultText
  }

  /** What reading `data/contents.json` gives: no file, a file that cannot
      be read or decoded (`open` or `json.load` raises), or its entries. */
  datatype Contents = NoContentsFile | Unreadable | Loaded(entries: map<string, seq<string>>)

  /** The parsed snippet, or `None` when reading the template (`None` when
      `open` raised) or the contents file raised. The template is filled with
      the chosen text, then parsed by `parse`, which stands for the HTML
      parser. */
  function Fragment(template: Option<string>, contents: Contents, domain: string,
                    parse: string -> seq<Node>): (r: Option<seq<Node>>)
    ensures r.None? <==> template.None? || contents.Unreadable?
    ensures r.Some? && contents.Loaded? ==> r.value == parse(Fill(template.value, SnippetText(Some(contents.entries), domain)))
    ensures r.Some? && contents.NoContentsFile? ==> r.value == parse(Fill(template.value, DefaultText))
  {
    match (template, contents)
    case (None, _) => None
    case (_, Unreadable) => None
    case (Some(t), NoContentsFile) => Some(parse(Fill(t, SnippetText(None, domain))))
    case (Some(t), Loaded(m)) => Some(parse(Fill(t, SnippetText(Some(m), domain))))
  }

  /** Where a run ended: an operation that raised, or a published page. */
  datatype Status = ConnectError | RenameError | ReadError | UploadError | Published

  datatype Run = Run(status: Status, store: Store<Document>)

  /** The directory after the rename of `index.html` to `backup`, when the
      rename did not raise: moved if it succeeded, unchanged otherwise. */
  function AfterRename(st: Store<Document>, backup: string, f: Faults): (moved: Store<Document>)
    requires backup != Index && !f.rename.OtherFault?
    ensures Index in st && f.rename.NoRenameFault? ==>
      && Index !in moved && backup in moved && moved[backup] == st[Index]
    ensures !(Index in st && f.rename.NoRenameFault?) ==> moved == st
    ensures forall n :: n != Index && n != backup ==>
      (n in moved <==> n in st) && (n in st ==> moved[n] == st[n])
  {
    match Rename(st, Index, backup, f)
    case Renamed(after) => after
    case _ => st
  }

  /** The page to modify: the backup if it can be retrieved, else the live
      page, else the scaffold. */
  function BasePage(moved: Store<Document>, backup: string, f: Faults): (d: Document)
    ensures backup in moved && backup !in f.retrieve ==> d == moved[backup]
    ensures !(backup in moved && backup !in f.retrieve) && Index in moved && Index !in f.retrieve ==>
      d == moved[Index]
    ensures !(backup in moved && backup !in f.retrieve) && !(Index in moved && Index !in f.retrieve) ==>
      d == Scaffold
  {
    match Retrieve(moved, backup, f)
    case Some(d) => d
    case None =>
      match Retrieve(moved, Index, f)
      case Some(d) => d
      case None => Scaffold
  }

  /** `handle` backing up to `backup` and injecting `snippet` (`None` when
      reading the template or the contents file raised). A failed
      connection, or a rename failing in a way other than a permanent error,
      raises before anything changes. A permanent rename error (also what a
      missing `index.html` gives) is tolerated. A failed local read or a
      failed upload raises, and after a successful rename either leaves the
      site without `index.html`. Only `index.html` and the backup name can
      change. */
  function HandleAs(st: Store<Document>, f: Faults, backup: string, snippet: Option<seq<Node>>): (r: Run)
    requires backup != Index
    ensures f.connect ==> r == Run(ConnectError, st)
    ensures !f.connect && f.rename.OtherFault? ==> r == Run(RenameError, st)
    ensures r.status.ReadError? <==> !f.connect && !f.rename.OtherFault? && snippet.None?
    ensures r.status.UploadError? <==> !f.connect && !f.rename.OtherFault? && snippet.Some? && Index in f.store
    ensures r.status.Published? <==> !f.connect && !f.rename.OtherFault? && snippet.Some? && Index !in f.store
    ensures r.status.Published? ==> Index in r.store
    ensures forall n :: n != Index && n != backup ==>
      (n in r.store <==> n in st) && (n in st ==> r.store[n] == st[n])
    ensures !f.connect && Index in st && f.rename.NoRenameFault? ==>
      && backup in r.store && r.store[backup] == st[Index]
      && (r.status.ReadError? || r.status.UploadError? ==> Index !in r.store)
      && (r.status.Published? && snippet.Some? && backup !in f.retrieve ==>
            r.store[Index] == InjectIntoHtml(st[Index], snippet.value))
    ensures !(Index in st && f.rename.NoRenameFault?) ==>
      && (backup in r.store <==> backup in st)
      && (backup in st ==> r.store[backup] == st[backup])
      && (Index in st ==> Index in r.store)
    ensures r.status.Published? && snippet.Some? && Index !in st && backup !in st ==>
      r.store[Index] == InjectIntoHtml(Scaffold, snippet.value)
    ensures r.status.Published? ==>
      r.store[Index] == InjectIntoHtml(BasePage(AfterRename(st, backup, f), backup, f), snippet.value)
  {
    if f.connect then Run(ConnectError, st)
    else if f.rename.OtherFault? then Run(RenameError, st)
    else
      var moved := AfterRename(st, backup, f);
      var base := BasePage(moved, backup, f);
      match snippet
      case None => Run(ReadError, moved)
      case Some(frag) =>
        match Put(moved, Index, InjectIntoHtml(base, frag), f)
        case None => Run(UploadError, moved)
        case Some(after) => Run(Published, after)
  }

  /** `handle` for `domain` at instant `t`: the backup is named after `t`
      and the snippet is the template filled for the domain. */
  function Handle(st: Store<Document>, f: Faults, t: Instant, template: Option<string>,
                  contents: Contents, domain: string, parse: string -> seq<Node>): Run
    requires Valid(t)
  {
    HandleAs(st, f, BackupName(t), Fragment(template, contents, domain, parse))
  }

  /** When the live page is moved but the backup cannot be retrieved, the
      live page is gone too, so the scaffold is published with the snippet;
      the old page survives only under the backup name. */
  lemma HandleBackupUnreadable(st: Store<Document>, f: Faults, backup: string, frag: seq<Node>)
    requires backup != Index && !f.connect && f.rename.NoRenameFault?
    requires Index in st && backup in f.retrieve && Index !in f.store
    ensures var r := HandleAs(st, f, backup, Some(frag));
      && r.status == Published && r.store[backup] == st[Index]
      && r.store[Index] == InjectIntoHtml(Scaffold, frag)
  {
  }

  /** A tolerated permanent rename error leaves the live page in place; when
      there is no file under the backup name, that page is the base and the
      published page is it with the snippet added. */
  lemma HandlePermFault(st: Store<Document>, f: Faults, backup: string, frag: seq<Node>)
    requires backup != Index && !f.connect && f.rename.PermFault?
    requires Index in st && backup !in st && Index !in f.retrieve && Index !in f.store
    ensures var r := HandleAs(st, f, backup, Some(frag));
      && r.status == Published && backup !in r.store
      && r.store[Index] == InjectIntoHtml(st[Index], frag)
  {
  }

  /** The worst case: the rename fails with a permanent error on a site that
      has a live page, nothing is under the backup name, and the live page
      cannot be retrieved either. The scaffold with the snippet is then
      uploaded over the live page, and no backup of it exists. */
  lemma HandleOverwriteUnbacked(st: Store<Document>, f: Faults, backup: string, frag: seq<Node>)
    requires backup != Index && !f.connect && f.rename.PermFault?
    requires Index in st && backup !in st && Index in f.retrieve && Index !in f.store
    ensures var r := HandleAs(st, f, backup, Some(frag));
      && r.status == Published && backup !in r.store
      && r.store[Index] == InjectIntoHtml(Scaffold, frag)
  {
  }

  /** A template or contents file that cannot be read, after the live page
      was moved, leaves the site without `index.html`. */
  lemma HandleReadFault(st: Store<Document>, f: Faults, backup: string)
    requires backup != Index && !f.connect && f.rename.NoRenameFault? && Index in st
    ensures var r := HandleAs(st, f, backup, None);
      && r.status == ReadError && Index !in r.store && r.store[backup] == st[Index]
  {
  }

  /** A run without faults on a site with a live page: the page moves to the
      backup, and the new `index.html` is that page with the snippet added. */
  lemma HandleNoFaults(st: Store<Document>, backup: string, frag: seq<Node>)
    requires backup != Index && Index in st
    ensures var r := HandleAs(st, NoFaults, backup, Some(frag));
      && r.status == Published
      && r.store == st[backup := st[Index]][Index := InjectIntoHtml(st[Index], frag)]
  {
    var moved := AfterRename(st, backup, NoFaults);
    assert BasePage(moved, backup, NoFaults) == st[Index];
    var page := InjectIntoHtml(st[Index], frag);
    assert HandleAs(st, NoFaults, backup, Some(frag)) == Run(Published, moved[Index := page]);
    assert moved[Index := page].Keys == st[backup := st[Index]][Index := page].Keys;
  }

  /** A first run on an empty site publishes the scaffold with the snippet in
      its row, and nothing else. */
  lemma HandleEmptySite(backup: string, frag: seq<Node>)
    requires backup != Index
    ensures var r := HandleAs(map[], NoFaults, backup, Some(frag));
      && r.status == Published && r.store.Keys == {Index}
      && NodeAt(r.store[Index], [0, 0, 0, 0]) == Some(Element("div", RowClass, frag))
  {
    ScaffoldInjection(frag);
  }
}

=== FILE: template.dfy ===
/** The partner-block template and its one placeholder, `{{content}}`,
    filled with `template.replace("{{content}}", text)`. */
module Template {
  import opened PyStr

  const Placeholder: string := "{{content}}"

  /** Every occurrence of the placeholder replaced by `text`. */
  function Fill(template: string, text: string): string {
    Replace(template, Placeholder, text)
  }

  /** Filling cuts the template at its placeholders and puts `text` where
      each one was: the pieces between placeholders hold no placeholder,
      joining them back with the placeholder gives the template, and joining
      them with `text` gives the filled block. */
  lemma FillReplacesEvery(template: string, text: string)
    ensures var pieces := Split(template, Placeholder);
      && Join(pieces, Placeholder) == template
      && Fill(template, text) == Join(pieces, text)
      && forall k :: 0 <= k < |pieces| ==> !Contains(pieces[k], Placeholder)
  {
    JoinSplit(template, Placeholder);
    ReplaceIsJoinOfSplit(template, Placeholder, text);
    SplitPiecesFree(template, Placeholder);
  }

  /** A template without the placeholder is used as it is. */
  lemma FillWithoutPlaceholder(template: string, text: string)
    requires !Contains(template, Placeholder)
    ensures Fill(template, text) == template
  {
    AbsentPattern(template, Placeholder, text);
  }

  /** Each placeholder (one fewer than the pieces) trades its 11 characters
      for the text. */
  lemma {:induction false} FillLength(template: string, text: string)
    ensures |Fill(template, text)| ==
      |template| + (|Split(template, Placeholder)| - 1) * (|text| - |Placeholder|)
  {
    ReplaceLength(template, Placeholder, text);
  }
}

=== FILE: timestamp.dfy ===
/** UTC instants and their `strftime("%Y%m%d%H%M%S")` rendering, used to name
    backup files. The clock itself is not modelled: callers pass the instant. */
module Timestamp {

  datatype Instant = Instant(year: nat, month: nat, day: nat, hour: nat, minute: nat, second: nat)

  /** An instant the clock can report, with a four-digit year. */
  predicate Valid(t: Instant) {
    1000 <= t.year <= 9999 && 1 <= t.month <= 12 && 1 <= t.day <= 31 &&
    t.hour < 24 && t.minute < 60 && t.second < 60
  }

  predicate IsDigit(c: char) {
    '0' <= c <= '9'
  }

  predicate AllDigits(s: string) {
    forall i :: 0 <= i < |s| ==> IsDigit(s[i])
  }

  function Pow10(w: nat): nat {
    if w == 0 then 1 else 10 * Pow10(w - 1)
  }

  /** The number a string of decimal digits denotes. */
  function DigitsValue(s: string): nat
    requires AllDigits(s)
    decreases |s|
  {
    if |s| == 0 then 0
    else DigitsValue(s[..|s| - 1]) * 10 + (s[|s| - 1] as int - '0' as int)
  }

  /** `n` written with exactly `w` digits, zero-padded on the left, as the
      `%m`, `%d`, `%H`, `%M`, `%S` and (for four-digit years) `%Y` directives
      render it. */
  function Pad(n: nat, w: nat): (r: string)
    requires n < Pow10(w)
    ensures |r| == w && AllDigits(r)
    ensures DigitsValue(r) == n
    decreases w
  {
    if w == 0 then ""
    else
      var init := Pad(n / 10, w - 1);
      var r := init + [('0' as int + n % 10) as char];
      assert r[..|r| - 1] == init;
      r
  }

  lemma Pow10Values()
    ensures Pow10(2) == 100 && Pow10(4) == 10000
  {
    assert Pow10(1) == 10;
    assert Pow10(3) == 1000;
  }

  lemma DigitsConcat(a: string, b: string)
    requires AllDigits(a) && AllDigits(b)
    ensures AllDigits(a + b)
  {
    assert forall i :: |a| <= i < |a + b| ==> (a + b)[i] == b[i - |a|];
  }

  /** `t.strftime("%Y%m%d%H%M%S")`. */
  function Format(t: Instant): (r: string)
    requires Valid(t)
    ensures |r| == 14 && AllDigits(r)
  {
    Pow10Values();
    var y, mo, d := Pad(t.year, 4), Pad(t.month, 2), Pad(t.day, 2);
    var h, mi, se := Pad(t.hour, 2), Pad(t.minute, 2), Pad(t.second, 2);
    DigitsConcat(y, mo);
    DigitsConcat(y + mo, d);
    DigitsConcat(y + mo + d, h);
    DigitsConcat(y + mo + d + h, mi);
    DigitsConcat(y + mo + d + h + mi, se);
    y + mo + d + h + mi + se
  }

  /** Reads a 14-digit stamp back into its fields. */
  function Parse(s: string): Instant
    requires |s| == 14 && AllDigits(s)
  {
    Instant(DigitsValue(s[0..4]), DigitsValue(s[4..6]), DigitsValue(s[6..8]),
            DigitsValue(s[8..10]), DigitsValue(s[10..12]), DigitsValue(s[12..14]))
  }

  /** The six fields of a stamp sit at fixed offsets. */
  lemma Fields(y: string, mo: string, d: string, h: string, mi: string, se: string)
    requires |y| == 4 && |mo| == 2 && |d| == 2 && |h| == 2 && |mi| == 2 && |se| == 2
    ensures var r := y + mo + d + h + mi + se;
      && r[0..4] == y && r[4..6] == mo && r[6..8] == d
      && r[8..10] == h && r[10..12] == mi && r[12..14] == se
  {
  }

  /** The stamp is exactly 14 digits and determines the instant: reading it
      back gives the instant that was formatted. */
  lemma ParseFormat(t: Instant)
    requires Valid(t)
    ensures Parse(Format(t)) == t
  {
    Pow10Values();
    Fields(Pad(t.year, 4), Pad(t.month, 2), Pad(t.day, 2), Pad(t.hour, 2), Pad(t.minute, 2), Pad(t.second, 2));
  }

  /** Two different instants never render to the same stamp. */
  lemma FormatInjective(t: Instant, u: Instant)
    requires Valid(t) && Valid(u) && t != u
    ensures Format(t) != Format(u)
  {
    ParseFormat(t);
    ParseFormat(u);
  }

  /** A file name made of `prefix`, the stamp of `t` and ".html". The stamp
      sits at a fixed offset and reads back as `t`, so the name tells the
      instant it was made at and different instants give different names. */
  function Stamped(prefix: string, t: Instant): (name: string)
    requires Valid(t)
    ensures |name| == |prefix| + 19
    ensures name[..|prefix|] == prefix && name[|prefix| + 14..] == ".html"
    ensures AllDigits(name[|prefix|..|prefix| + 14]) && Parse(name[|prefix|..|prefix| + 14]) == t
  {
    var stamp := Format(t);
    Parts(prefix, stamp, ".html");
    ParseFormat(t);
    prefix + stamp + ".html"
  }

  lemma Parts(p: string, m: string, q: string)
    ensures var s := p + m + q;
      && |s| == |p| + |m| + |q|
      && s[..|p|] == p && s[|p|..|p| + |m|] == m && s[|p| + |m|..] == q
  {
  }
}

=== FILE: tree.dfy ===
/** A parsed HTML page as a small element tree, with the two tree operations
    the injection script relies on: `soup.find(...)`, the first matching
    descendant in document order, and `tag.append(...)`, adding nodes as the
    last children of an element. Nodes are addressed by paths of child
    indices from the root. */
module Tree {
  import opened Options

  /** A text node, or an element with its tag, its class attribute as written
      and its children. */
  datatype Node = Text(text: string) | Element(tag: string, cls: string, kids: seq<Node>)

  /** A whole parsed page: the parser's root object is always an element. */
  type Document = n: Node | n.Element? witness Element("[document]", "", [])

  /** The class string of the partner row. */
  const RowClass: string := "row align-center justify-content-center"

  /** What the injection looks for: the partner row `div`, or `<body>`. */
  datatype Target = Row | Body

  predicate Matches(n: Node, t: Target) {
    n.Element? &&
    match t
    case Row => n.tag == "div" && n.cls == RowClass
    case Body => n.tag == "body"
  }

  /** The node at `path` below `n`: the empty path is `n` itself, and
      `[i] + p` continues from the `i`-th child. */
  function NodeAt(n: Node, path: seq<nat>): Option<Node>
    decreases |path|
  {
    if |path| == 0 then Some(n)
    else if n.Element? && path[0] < |n.kids| then NodeAt(n.kids[path[0]], path[1..])
    else None
  }

  predicate IsElementAt(n: Node, path: seq<nat>) {
    NodeAt(n, path).Some? && NodeAt(n, path).value.Element?
  }

  /** Drops the last `k` children of the element at `path`. */
  function TrimAt(n: Node, path: seq<nat>, k: nat): Node
    requires IsElementAt(n, path) && k <= |NodeAt(n, path).value.kids|
    decreases |path|
  {
    if |path| == 0 then Element(n.tag, n.cls, n.kids[..|n.kids| - k])
    else
      var i := path[0];
      Element(n.tag, n.cls, n.kids[i := TrimAt(n.kids[i], path[1..], k)])
  }

  /** Appends `frag` as the last children of the element at `path`. The
      element at `path` then has its old children followed by `frag`, and
      dropping those last `|frag|` children gives back the original tree:
      nothing that was there moves or disappears. */
  function AppendAt(n: Node, path: seq<nat>, frag: seq<Node>): (r: Node)
    requires IsElementAt(n, path)
    ensures r.Element? && IsElementAt(r, path)
    ensures var e := NodeAt(n, path).value;
      NodeAt(r, path) == Some(Element(e.tag, e.cls, e.kids + frag))
    ensures TrimAt(r, path, |frag|) == n
    decreases |path|
  {
    if |path| == 0 then
      var r := Element(n.tag, n.cls, n.kids + frag);
      assert r.kids[..|r.kids| - |frag|] == n.kids;
      r
    else
      var i := path[0];
      var c := AppendAt(n.kids[i], path[1..], frag);
      var r := Element(n.tag, n.cls, n.kids[i := c]);
      assert r.kids[i] == c;
      assert r.kids[i := TrimAt(c, path[1..], |frag|)] == n.kids;
      r
  }

  /** `q` comes before `p` in document order: `q` is an ancestor of `p`, or
      lies to its left where the two paths first differ. */
  predicate Before(q: seq<nat>, p: seq<nat>)
    decreases |q|
  {
    |p| > 0 && (|q| == 0 || q[0] < p[0] || (q[0] == p[0] && Before(q[1..], p[1..])))
  }

  /** The first descendant of `n` matching `t` in document order, searching
      the subtrees of the children from the `i`-th on. */
  function FindFrom(n: Node, i: nat, t: Target): Option<seq<nat>>
    requires n.Element?
    decreases n, |n.kids| - i
  {
    if i >= |n.kids| then None
    else if Matches(n.kids[i], t) then Some([i])
    else
      var c := n.kids[i];
      var inner := if c.Element? then FindFrom(c, 0, t) else None;
      if inner.Some? then Some([i] + inner.value) else FindFrom(n, i + 1, t)
  }

  /** `soup.find(...)`: the first matching descendant in document order
      (`FindFromSome`), or `None` when no descendant matches
      (`FindFromNone`). */
  function Find(n: Node, t: Target): (r: Option<seq<nat>>)
    requires n.Element?
    ensures r.Some? ==> |r.value| >= 1 && NodeAt(n, r.value).Some? && Matches(NodeAt(n, r.value).value, t)
  {
    match FindFrom(n, 0, t)
    case Some(p) => FindFromSome(n, 0, t); Some(p)
    case None => None
  }

  lemma NodeAtStep(n: Node, q: seq<nat>)
    requires n.Element? && |q| >= 1 && q[0] < |n.kids|
    ensures NodeAt(n, q) == NodeAt(n.kids[q[0]], q[1..])
  {
  }

  /** When the search finds nothing, no descendant from the `i`-th child on
      matches. */
  lemma {:induction false} FindFromNone(n: Node, i: nat, t: Target)
    requires n.Element? && FindFrom(n, i, t).None?
    ensures forall q :: |q| >= 1 && i <= q[0] && NodeAt(n, q).Some? ==>
      !Matches(NodeAt(n, q).value, t)
    decreases n, |n.kids| - i
  {
    if i < |n.kids| {
      var c := n.kids[i];
      if c.Element? {
        FindFromNone(c, 0, t);
      }
      FindFromNone(n, i + 1, t);
      forall q | |q| >= 1 && i <= q[0] && NodeAt(n, q).Some?
        ensures !Matches(NodeAt(n, q).value, t)
      {
        if q[0] == i {
          NodeAtStep(n, q);
          if |q| == 1 {
            assert NodeAt(n, q).value == c;
          } else {
            assert c.Element?;
            assert NodeAt(n, q) == NodeAt(c, q[1..]);
          }
        }
      }
    }
  }

  /** When the search finds a path, the node there matches and every node
      before it in document order, from the `i`-th child on, does not. */
  lemma {:induction false} FindFromSome(n: Node, i: nat, t: Target)
    requires n.Element? && FindFrom(n, i, t).Some?
    ensures var p := FindFrom(n, i, t).value;
      && |p| >= 1 && i <= p[0]
      && NodeAt(n, p).Some? && Matches(NodeAt(n, p).value, t)
      && forall q :: |q| >= 1 && i <= q[0] && Before(q, p) && NodeAt(n, q).Some? ==>
           !Matches(NodeAt(n, q).value, t)
    decreases n, |n.kids| - i, 1
  {
    var c := n.kids[i];
    var p := FindFrom(n, i, t).value;
    if Matches(c, t) {
      assert p == [i];
      assert NodeAt(n, p) == NodeAt(c, []);
    } else if c.Element? && FindFrom(c, 0, t).Some? {
      FindFromSomeInside(n, i, t);
    } else {
      FindFromSomeLater(n, i, t);
    }
  }

  /** `FindFromSome` when the match lies inside the `i`-th child. */
  lemma {:induction false} FindFromSomeInside(n: Node, i: nat, t: Target)
    requires n.Element? && i < |n.kids| && !Matches(n.kids[i], t)
    requires n.kids[i].Element? && FindFrom(n.kids[i], 0, t).Some?
    ensures FindFrom(n, i, t) == Some([i] + FindFrom(n.kids[i], 0, t).value)
    ensures var p := FindFrom(n, i, t).value;
      && |p| >= 1 && i <= p[0]
      && NodeAt(n, p).Some? && Matches(NodeAt(n, p).value, t)
      && forall q :: |q| >= 1 && i <= q[0] && Before(q, p) && NodeAt(n, q).Some? ==>
           !Matches(NodeAt(n, q).value, t)
    decreases n, |n.kids| - i, 0
  {
    var c := n.kids[i];
    var inner := FindFrom(c, 0, t).value;
    FindFromSome(c, 0, t);
    var p := [i] + inner;
    assert p[0] == i && p[1..] == inner;
    NodeAtStep(n, p);
    forall q | |q| >= 1 && i <= q[0] && Before(q, p) && NodeAt(n, q).Some?
      ensures !Matches(NodeAt(n, q).value, t)
    {
      assert q[0] == i;
      NodeAtStep(n, q);
      if |q| > 1 {
        assert Before(q[1..], inner);
      }
    }
  }

  /** `FindFromSome` when neither the `i`-th child nor anything inside it
      matches: the search goes on with the next child. */
  lemma {:induction false} FindFromSomeLater(n: Node, i: nat, t: Target)
    requires n.Element? && i < |n.kids| && !Matches(n.kids[i], t)
    requires !(n.kids[i].Element? && FindFrom(n.kids[i], 0, t).Some?)
    requires FindFrom(n, i, t).Some?
    ensures var p := FindFrom(n, i, t).value;
      && |p| >= 1 && i <= p[0]
      && NodeAt(n, p).Some? && Matches(NodeAt(n, p).value, t)
      && forall q :: |q| >= 1 && i <= q[0] && Before(q, p) && NodeAt(n, q).Some? ==>
           !Matches(NodeAt(n, q).value, t)
    decreases n, |n.kids| - i, 0
  {
    var c := n.kids[i];
    assert FindFrom(n, i, t) == FindFrom(n, i + 1, t);
    var p := FindFrom(n, i, t).value;
    if c.Element? {
      FindFromNone(c, 0, t);
    }
    FindFromSome(n, i + 1, t);
    forall q | |q| >= 1 && i <= q[0] && Before(q, p) && NodeAt(n, q).Some?
      ensures !Matches(NodeAt(n, q).value, t)
    {
      if q[0] == i {
        NodeAtStep(n, q);
        if |q| == 1 {
          assert NodeAt(n, q).value == c;
        } else {
          assert c.Element?;
          assert NodeAt(n, q) == NodeAt(c, q[1..]);
        }
      }
    }
  }
}

=== FILE: url.dfy ===
/** The host part of an href as `urllib.parse.urlparse(href).netloc` yields it,
    reduced to the generic syntax of RFC 3986: an optional scheme (section 3.1)
    ended by the first ':', then an authority (section 3.2) that is present
    only when the remainder starts with "//" and that runs up to the first
    '/', '?' or '#'. */
module Url {
  import opened PyStr

  predicate IsAlpha(c: char) {
    'a' <= c <= 'z' || 'A' <= c <= 'Z'
  }

  predicate IsSchemeChar(c: char) {
    IsAlpha(c) || '0' <= c <= '9' || c == '+' || c == '-' || c == '.'
  }

  /** scheme = ALPHA *( ALPHA / DIGIT / "+" / "-" / "." ) */
  predicate IsScheme(x: string) {
    |x| > 0 && IsAlpha(x[0]) && forall i :: 0 <= i < |x| ==> IsSchemeChar(x[i])
  }

  /** Characters that end the authority component. */
  predicate IsDelimiter(c: char) {
    c == '/' || c == '?' || c == '#'
  }

  predicate NoDelimiter(s: string) {
    forall i :: 0 <= i < |s| ==> !IsDelimiter(s[i])
  }

  /** The text after "scheme:" when the text before the first ':' is a
      scheme; otherwise the whole href. */
  function AfterScheme(s: string): (rest: string)
    ensures |rest| <= |s| && rest == s[|s| - |rest|..]
  {
    var i := Find(s, ":", 0);
    if i > 0 && IsScheme(s[..i]) then s[i + 1..] else s
  }

  /** The first index at or after `i` holding a delimiter, or `|s|`. */
  function AuthorityEnd(s: string, i: nat): (e: nat)
    requires i <= |s|
    ensures i <= e <= |s|
    ensures forall k :: i <= k < e ==> !IsDelimiter(s[k])
    ensures e < |s| ==> IsDelimiter(s[e])
    decreases |s| - i
  {
    if i == |s| || IsDelimiter(s[i]) then i else AuthorityEnd(s, i + 1)
  }

  /** The authority component (Python's `netloc`), empty when there is none. */
  function Netloc(s: string): (auth: string)
    ensures NoDelimiter(auth)
  {
    var rest := AfterScheme(s);
    if |rest| >= 2 && rest[..2] == "//" then rest[2..AuthorityEnd(rest, 2)] else ""
  }

  /** The first delimiter is where the authority text stops. */
  lemma AuthorityEndAt(auth: string, tail: string)
    requires NoDelimiter(auth)
    requires tail == "" || IsDelimiter(tail[0])
    ensures AuthorityEnd("//" + auth + tail, 2) == 2 + |auth|
  {
    var s := "//" + auth + tail;
    assert forall k :: 2 <= k < 2 + |auth| ==> s[k] == auth[k - 2];
    assert tail != "" ==> s[2 + |auth|] == tail[0];
  }

  /** After a valid scheme, the first ':' is the one that ends it. */
  lemma AfterValidScheme(scheme: string, t: string)
    requires IsScheme(scheme)
    ensures AfterScheme(scheme + ":" + t) == t
  {
    var s := scheme + ":" + t;
    var n := |scheme|;
    assert HasAt(s, ":", n) by { assert s[n..n + 1] == ":"; }
    assert forall k :: 0 <= k < n ==> s[k] == scheme[k];
    assert forall k :: 0 <= k < n ==> !HasAt(s, ":", k) by {
      forall k | 0 <= k < n ensures !HasAt(s, ":", k) {
        assert IsSchemeChar(scheme[k]);
        assert s[k..k + 1][0] == s[k];
      }
    }
    assert Find(s, ":", 0) == n;
    assert s[..n] == scheme;
    assert s[n + 1..] == t;
  }

  /** The authority of an href whose text after the scheme is given. */
  lemma NetlocOfRest(s: string, auth: string, tail: string)
    requires AfterScheme(s) == "//" + auth + tail
    requires NoDelimiter(auth)
    requires tail == "" || IsDelimiter(tail[0])
    ensures Netloc(s) == auth
  {
    var rest := "//" + auth + tail;
    AuthorityEndAt(auth, tail);
    assert rest[..2] == "//";
    assert rest[2..2 + |auth|] == auth;
  }

  /** Composing an absolute URL and reading its authority back gives the
      authority that went in. */
  lemma NetlocOfAbsolute(scheme: string, auth: string, tail: string)
    requires IsScheme(scheme) && NoDelimiter(auth)
    requires tail == "" || IsDelimiter(tail[0])
    ensures Netloc(scheme + "://" + auth + tail) == auth
  {
    var s := scheme + "://" + auth + tail;
    assert s == scheme + ":" + ("//" + auth + tail);
    AfterValidScheme(scheme, "//" + auth + tail);
    NetlocOfRest(s, auth, tail);
  }

  /** A protocol-relative href ("//host/path") has the text after "//" up to
      the first delimiter as its authority. */
  lemma NetlocOfProtocolRelative(auth: string, tail: string)
    requires NoDelimiter(auth)
    requires tail == "" || IsDelimiter(tail[0])
    ensures Netloc("//" + auth + tail) == auth
  {
    var s := "//" + auth + tail;
    assert !IsAlpha(s[0]);
    assert AfterScheme(s) == s;
    NetlocOfRest(s, auth, tail);
  }

  /** An href without "//" has no authority. */
  lemma NetlocNeedsDoubleSlash(s: string)
    requires !Contains(s, "//")
    ensures Netloc(s) == ""
  {
    var rest := AfterScheme(s);
    if |rest| >= 2 && rest[..2] == "//" {
      var k := |s| - |rest|;
      assert s[k..k + 2] == rest[..2];
      assert HasAt(s, "//", k);
      assert false;
    }
  }
}
